=== FILE: README.md ===
# Password vault backend — a Dafny model

This project models the server side of a small password vault. Users sign up
with a username, a master password and three security answers. Signup and
login each hand back a session token in an HTTP-only cookie. Behind a
token-checking middleware, users store secrets under a topic name, list their
topics, delete them, and retrieve a secret by answering their three security
questions again.

The model covers the backend's core:

- `cryptoUtils.js`: the start-up key guard, and the `iv:ciphertext` envelope
  that `encrypt` writes and `decrypt` reads. Modules `Hex` and `CryptoUtils`.
- `authController.js`: `signup`, `login` and `createSendToken`. Module
  `AuthController`, with the hashing library in `Bcrypt` and the token
  library in `Jwt`.
- `authMiddleware.js`: `protect`. Module `AuthMiddleware`.
- `passwordController.js`: create, list, retrieve and delete. Module
  `PasswordController`.
- The two schemas `User.js` and `PasswordItem.js`, with the collection
  operations the controllers call. Module `Models`.
- The route table `passwordRoutes.js`, which puts `protect` in front of
  every vault handler. Module `PasswordRoutes`.
- `Text` models the `toLowerCase`, `trim` and `split` calls the code relies on.

Each handler is a pure function. It takes the collection it reads and
returns the collection after the request (where it changes), together with
the HTTP status and either a payload or a message.

The foreign parts enter as arguments:

- AES-256-CBC is a `CryptoUtils.Cipher`.
- bcrypt is a `Bcrypt.Hasher`.
- The JWT signature under the server secret is a `Jwt.Mac`.

The cipher and the hasher each come with a `Sound` predicate, the only
property the backend relies on, which only the lemmas that need it require.
`Jwt.Mac` is left unconstrained. The one assumption about signatures is that
a different secret signs the same claims differently; it appears as the
`requires` of `Jwt.VerifyForeign`, the only lemma that needs it. Random
values and the clock are also arguments: the IV, the bcrypt salts, the identifiers the store assigns,
and the current time in milliseconds.

Some behaviour follows the code rather than its documentation:

- **Key guard.** The guard decodes the key with the lenient hex decoder and
  tests the decoded length, not the text. So 64 hex digits followed by a tail
  that does not start with a hex pair are accepted
  (`CryptoUtils.LoadKeyIgnoresTrailingText`). Upper-case hex is accepted too.
  The comment at `cryptoUtils.js:16` and the error message at
  `cryptoUtils.js:18` speak of a "64-character hex string", which the guard
  does not check.
- **Token expiry.** The token library rejects a token once the current whole
  second reaches `exp`, not only after it passes it.
- **Decryption errors.** `decrypt` rethrows every failure as one error
  (`DecryptFailed`): a wrong part count, an IV of the wrong size, a failing
  `final`, odd-length ciphertext hex. The model keeps this single error and
  does not tell a malformed envelope from a cipher failure.
- **Signup response.** `createSendToken` clears only `passwordHash` and
  `answerHash1`. The signup and login responses therefore still carry
  `answerHash2` and `answerHash3`, which the model states
  (`AuthController.CreateSendToken`). The comment at `authController.js:25`
  ("remove other answer hashes") shows the other two were meant to be
  cleared as well; the model follows the code.
- **Duplicate `_id`.** At signup, a colliding `_id` is the same
  duplicate-key error as a colliding username. It is answered 400
  "Username already exists." like one.
- **Missing fields.** In `signup`, `createPassword` and `retrievePassword`,
  a missing password, answer or topic throws, or fails schema validation,
  inside the handler's `try`. The handler then answers 500, and the model
  follows each of these paths. `login` is different: it checks its two
  fields first and answers a missing or empty one with 400.
- **Username lookup.** `login` looks the user up with
  `username.toLowerCase()`. The store casts a query value through the
  schema's `trim` and `lowercase` setters, so the model's lookup compares
  stored usernames with the trimmed, lower-cased filter
  (`Models.FindUserByUsername`).

## Model

| member | source | states |
|---|---|---|
| `Text.Split` | backend/utils/cryptoUtils.js:40 | splitting on `:` gives one more part than there are separators, and no part contains one |
| `Text.JoinSplit` | backend/utils/cryptoUtils.js:40 | joining the parts of a split with the separator restores the text |
| `Text.SplitTwo` | backend/utils/cryptoUtils.js:32-43 | two colon-free fields joined by `:` split back into exactly those two fields |
| `Text.ToLower` | backend/models/User.js:11 | lower-casing keeps the length and leaves no capital: each capital becomes its own small letter, and every other character stays in place |
| `Text.Trim` | backend/models/PasswordItem.js:14 | `trim` leaves no outer whitespace, and a string without outer whitespace is left as it is |
| `Text.TrimShape` | backend/models/PasswordItem.js:14 | the result of `trim` is the input's middle with only whitespace cut on either side |
| `Text.Normalize` | backend/controllers/authController.js:43-45 | `toLowerCase().trim()` yields a string without outer whitespace and without capital letters |
| `Text.TrimIdempotent` | backend/models/PasswordItem.js:14 | trimming a trimmed topic name changes nothing |
| `Text.TrimIgnoresPadding` | backend/models/PasswordItem.js:14 | whitespace added around a string does not change what `trim` returns |
| `Text.LowerTrimCommute` | backend/models/User.js:10-11 | lower-casing and trimming commute, so the order of the username setters does not matter |
| `Text.NormalizeIdempotent` | backend/models/User.js:10-11 | a stored (normalised) username normalises to itself |
| `Text.NormalizeOfLower` | backend/controllers/authController.js:76 | lower-casing the login name first does not change its normalised form |
| `Text.NormalizeIgnoresCaseAndPadding` | backend/controllers/authController.js:43-45 | an upper-cased or whitespace-padded answer normalises to the same string as the original |
| `Hex.Encode` | backend/utils/cryptoUtils.js:32 | a buffer's hex form has two lower-case hex digits per byte |
| `Hex.Decode` | backend/utils/cryptoUtils.js:45 | lenient hex decoding yields at most one byte per two characters |
| `Hex.DecodeEncodeThen` | backend/utils/cryptoUtils.js:14 | decoding a hex encoding followed by any text yields the encoded bytes, then the decoding of the text |
| `Hex.DecodeEncode` | backend/utils/cryptoUtils.js:32-45 | decoding the hex form of a buffer gives the buffer back |
| `Hex.EncodeDecode` | backend/utils/cryptoUtils.js:45 | on even-length lower-case hex, re-encoding the decoded bytes gives the text back |
| `CryptoUtils.LoadKey` | backend/utils/cryptoUtils.js:5-20 | a missing or empty secret is `MissingKey`; the key is accepted exactly when its hex decoding is 32 bytes, and is then the lower-cased first 64 characters |
| `CryptoUtils.DecodePrefix` | backend/utils/cryptoUtils.js:14 | the decoded key bytes re-encode to the lower-cased hex prefix that produced them |
| `CryptoUtils.LoadKeyOfEncoded` | backend/utils/cryptoUtils.js:14-20 | any 32-byte key written as 64 lower-case hex digits is accepted as exactly those bytes |
| `CryptoUtils.ShortKeyRejected` | backend/utils/cryptoUtils.js:16-20 | a secret shorter than 64 characters stops start-up |
| `CryptoUtils.LoadKeyIgnoresTrailingText` | backend/utils/cryptoUtils.js:14-20 | 64 hex digits followed by a tail that is not a hex pair pass the guard, and the tail is ignored |
| `CryptoUtils.Serialize` | backend/utils/cryptoUtils.js:32 | the envelope text holds exactly one `:`, the IV's hex before it, and is in canonical (even-length lower-case hex) form |
| `CryptoUtils.Parse` | backend/utils/cryptoUtils.js:40-46 | text parses as an envelope exactly when it holds one `:` |
| `CryptoUtils.ParseSerialize` | backend/utils/cryptoUtils.js:32-46 | parsing a serialised envelope gives the envelope back |
| `CryptoUtils.SerializeParse` | backend/utils/cryptoUtils.js:40-46 | serialising a parsed canonical envelope gives the text back |
| `CryptoUtils.Encrypt` | backend/utils/cryptoUtils.js:25-33 | the stored text starts with the 32 lower-case hex digits of the IV, then one `:`, and is canonical |
| `CryptoUtils.Decrypt` | backend/utils/cryptoUtils.js:38-59 | a text without exactly one `:` fails, and so does a ciphertext field of odd length; success happens exactly when the IV field decodes to 16 bytes, the ciphertext field has even length and the cipher accepts the ciphertext, and then returns the cipher's plaintext |
| `CryptoUtils.DecryptRejectsOddCiphertext` | backend/utils/cryptoUtils.js:50-57 | an envelope `encrypt` wrote, with one hex digit appended, fails to decrypt whatever the cipher |
| `CryptoUtils.DecryptEncrypt` | backend/utils/cryptoUtils.js:25-59 | with a sound cipher, decrypting what `encrypt` wrote returns the plaintext |
| `CryptoUtils.DecryptRejectsBadIv` | backend/utils/cryptoUtils.js:45-48 | an IV field that does not decode to 16 bytes fails, whatever the cipher |
| `Bcrypt.HashAnswer` | backend/controllers/authController.js:43-45 | with a sound hasher, an answer digest is non-empty and verifies exactly the normalised answer |
| `Bcrypt.AnswerMatches` | backend/controllers/passwordController.js:68-70 | with a sound hasher, a submitted answer matches a digest of `x` exactly when it normalises to `x` |
| `Bcrypt.AnswerMatchesIff` | backend/controllers/passwordController.js:68-70 | an answer verifies against the signup digest exactly when it normalises like the original answer |
| `Bcrypt.AnswerVariantsMatch` | backend/controllers/authController.js:43-45 | case and surrounding-whitespace variants of an answer verify |
| `Bcrypt.PasswordMatchesIff` | backend/controllers/authController.js:83 | the master password verifies only when it is exactly the signup password |
| `Jwt.Sign` | backend/controllers/authController.js:9-11 | the token carries the user id, is issued in the current second, lives 90 days and is signed under the server secret |
| `Jwt.Verify` | backend/middleware/authMiddleware.js:24 | a token verifies exactly when it is well formed, its signature matches and its expiry second is still ahead; an expiry failure implies a valid signature |
| `Jwt.VerifySigned` | backend/controllers/authController.js:9-11 | an issued token verifies, carrying its id, before 90 days have passed and is expired from then on |
| `Jwt.VerifyForeign` | backend/middleware/authMiddleware.js:24 | a token signed under another secret is invalid at any time |
| `Models.ValidUser` | backend/models/User.js:6-29 | a stored user has a non-empty username that is already trimmed and lower-cased, and four non-empty digests |
| `Models.ValidUsers` | backend/models/User.js:5-30 | the users collection: every record valid, no two sharing an `_id` or a username |
| `Models.MissingUserPaths` | backend/models/User.js:6-29 | user validation reports no missing path exactly when every required field is non-empty |
| `Models.CreateUser` | backend/models/User.js:5-30 | the user is appended with its username normalised and its digests as given; a missing field is a validation error; a taken `_id` or username is the duplicate-key error; validity of the collection is preserved |
| `Models.AppendUserKeepsDistinct` | backend/models/User.js:9 | appending a user with a new `_id` and username keeps both unique |
| `Models.AppendUserKeepsValid` | backend/models/User.js:5-30 | appending a valid user with fresh keys keeps the users collection valid |
| `Models.FindUserById` | backend/middleware/authMiddleware.js:27 | the lookup returns a stored user with that `_id`, and nothing exactly when none exists |
| `Models.FindUserByUsername` | backend/controllers/authController.js:76 | the lookup returns a user whose stored name equals the normalised filter, and nothing exactly when none does |
| `Models.FindUserByUsernameUnique` | backend/models/User.js:9 | in a valid collection the lookup finds the one user holding that name |
| `Models.FindUserByUsernameFilter` | backend/controllers/authController.js:76 | filters with the same normalised form find the same user |
| `Models.ValidItem` | backend/models/PasswordItem.js:6-19 | a stored item has a non-empty, trimmed topic name and a non-empty envelope |
| `Models.ValidItems` | backend/models/PasswordItem.js:5-24 | the items collection: every record valid, no two sharing an `_id` |
| `Models.CreateItem` | backend/models/PasswordItem.js:5-24 | the item is appended with its topic trimmed and `isFavorite` defaulting to false; an empty topic or envelope is a validation error; a taken `_id` is the duplicate-key error |
| `Models.AppendItemKeepsValid` | backend/models/PasswordItem.js:5-24 | appending a valid item with a new `_id` keeps the items collection valid |
| `Models.FindItemById` | backend/controllers/passwordController.js:58 | the lookup returns a stored item with that `_id`, and nothing exactly when none exists |
| `Models.OwnedBy` | backend/controllers/passwordController.js:39 | the result holds exactly the items whose owner is the given user |
| `Models.FirstMatch` | backend/controllers/passwordController.js:106-109 | the position found is the first item matching both `_id` and owner, and there is none exactly when no item matches |
| `Models.DeleteOne` | backend/controllers/passwordController.js:106-109 | nothing is removed exactly when no item matches both `_id` and owner; otherwise one matching item is cut out and returned, and a valid collection stays valid |
| `Models.RemoveKeepsValid` | backend/controllers/passwordController.js:106-109 | removing one item keeps the items collection valid |
| `Models.RemoveDropsOnlyThatId` | backend/controllers/passwordController.js:106-109 | in a valid collection, removing an item removes its `_id` and keeps every other item |
| `AuthController.CreateSendToken` | backend/controllers/authController.js:8-32 | the token names the user and verifies now; the cookie is the HTTP-only `jwt` cookie expiring 90 days on, within a second of the token; the view clears `passwordHash` and `answerHash1` but still carries `answerHash2` and `answerHash3` |
| `AuthController.Signup` | backend/controllers/authController.js:35-63 | success is 201 and appends the user with the verbatim password digest and the normalised answer digests; it happens exactly when the body is accepted and no key is taken; the 400 duplicate reply happens exactly when a key is taken; any failure leaves the users unchanged |
| `AuthController.SignupOutcome` | backend/controllers/authController.js:47-62 | with a sound hasher and a complete body, signup succeeds exactly when neither key is taken, and is the 400 duplicate reply otherwise |
| `AuthController.Accepted` | backend/models/User.js:8-28 | what the user schema's `required` validators let through: every field present, a username that is not empty once normalised, and four non-empty digests (a predicate, used by `Signup`'s contract) |
| `AuthController.SignupThenSameNameIsDuplicate` | backend/controllers/authController.js:58-60 | after a signup, a later signup whose name normalises to the same username is refused as a duplicate, whatever its salts, `_id` and time |
| `AuthController.AliceVariants` | backend/models/User.js:10-11 | "alice" and "ALICE " are stored as the same username |
| `AuthController.Login` | backend/controllers/authController.js:67-95 | every failure is the 400 or the generic 401; the 400 happens exactly when a field is missing or empty; a success is 200 with a session for a stored user of that normalised name whose digest accepts the password |
| `AuthController.LoginUnknown` | backend/controllers/authController.js:76-80 | an unknown username gets the generic 401 |
| `AuthController.LoginKnown` | backend/controllers/authController.js:83-90 | for the user the lookup finds, the password alone decides between a session for that user and the generic 401 |
| `AuthController.LoginFailuresIndistinguishable` | backend/controllers/authController.js:78-87 | an unknown username and a wrong password get the identical reply |
| `AuthController.SignupThenLogin` | backend/controllers/authController.js:35-95 | after signup, logging in with a name that normalises alike and the same password gives a session for the new id; any other password gets the 401 |
| `AuthMiddleware.HasToken` | backend/middleware/authMiddleware.js:10-14 | a token is present only when the `jwt` cookie exists and is not the empty string (a predicate, used by `Protect`'s contract) |
| `AuthMiddleware.Protect` | backend/middleware/authMiddleware.js:6-47 | every refusal is a 401: no token, a token that fails verification (one message for forged and expired), or a verified token whose user no longer exists, which alone gets its own "no longer exists" message; access is granted exactly when the token verifies and names a stored user, and the request then carries that user |
| `AuthMiddleware.ProtectAdmitsIssuedToken` | backend/middleware/authMiddleware.js:10-38 | a token the server issued to a stored user opens the gate until 90 days after issue, with exactly that user attached |
| `AuthMiddleware.ExpiredAndForgedAlike` | backend/middleware/authMiddleware.js:40-46 | at the same moment, an expired token and one signed under another secret for the same id get the identical refusal |
| `PasswordController.CreatePassword` | backend/controllers/passwordController.js:9-34 | success is 201 and stores exactly one item for the current user, with the trimmed topic, the envelope of the password, and the favourite flag defaulting to false; it happens exactly when password and topic are present, the topic is not blank and the `_id` is free; the reply holds no secret; every failure is a 500 that stores nothing |
| `PasswordController.CreatedItemDecrypts` | backend/controllers/passwordController.js:14-21 | with a sound cipher, the stored envelope decrypts to the submitted password and belongs to the current user |
| `PasswordController.GetAllPasswords` | backend/controllers/passwordController.js:37-50 | the listing is 200, counts its entries, and holds the metadata of every item of the current user and of no other item |
| `PasswordController.Owns` | backend/controllers/passwordController.js:58-60 | the item is found by `_id` and its owner is the current user (a predicate, used by the retrieval contracts) |
| `PasswordController.AllMatch` | backend/controllers/passwordController.js:68-72 | each of the three answers verifies against its own digest (a predicate, used by the retrieval contracts) |
| `PasswordController.RetrievePassword` | backend/controllers/passwordController.js:53-96 | a missing item and another user's item get the same 404; a missing answer is the 500; any wrong answer is the one 403 and leaves the audit line; success happens exactly when all three answers verify and the envelope decrypts, and reveals the decrypted password and topic; when the answers verify but the envelope does not decrypt, the reply is the 500 "Secure retrieval failed." |
| `PasswordController.MismatchesIndistinguishable` | backend/controllers/passwordController.js:72-79 | any two answer sets with at least one wrong answer get the identical reply and log line |
| `PasswordController.DeletePassword` | backend/controllers/passwordController.js:102-124 | an item matching both `_id` and owner is removed with a 204; otherwise the reply is the one 404 and nothing changes; validity is preserved |
| `PasswordController.DeleteRemovesOnlyTarget` | backend/controllers/passwordController.js:106-119 | after a deletion every other item remains, nothing new appears, and retrieving the deleted `_id` is the 404 |
| `PasswordRoutes.ListFor` | backend/controllers/passwordController.js:37-50 | the list handler answers with a listing of exactly the given user's items and changes nothing |
| `PasswordRoutes.CreateFor` | backend/controllers/passwordController.js:9-34 | the create handler succeeds exactly when password and topic are present, the topic is not blank and the `_id` is free; a created item is appended, owned by the given user and holding the envelope of the submitted password, and the 201 reply carries only its `_id`, topic and favourite flag; a failure changes nothing |
| `PasswordRoutes.DeleteFor` | backend/controllers/passwordController.js:102-124 | the delete handler succeeds exactly when an item has that `_id` and the given user as owner, and then answers 204 with no payload; only such an item is removed |
| `PasswordRoutes.RetrieveFor` | backend/controllers/passwordController.js:53-96 | the retrieve handler succeeds exactly when the item is the given user's own, all three of that user's answers verify and the envelope decrypts; the secret is that item's decrypted password and topic; the audit line names that user |
| `PasswordRoutes.Route` | backend/routes/passwordRoutes.js:9-24 | a request `protect` refuses is a 401 that changes nothing; any success, change or audit line needs a verified token naming a stored user; every handler runs for the user `protect` granted: the listing holds exactly that user's items, a created item belongs to that user, a deleted item had that `_id` and owner, a revealed secret needs that user's ownership and answers, and the audit line names that user; for a granted user, create and retrieve succeed exactly when their handler's condition holds, delete exactly when a matching item exists; only retrieve reveals a secret, create's reply carries item metadata and delete's is a bare 204; only create and delete change the items; validity is preserved |
| `PasswordRoutes.FindAppended` | backend/controllers/passwordController.js:58 | a newly created item with a free `_id` is what `findById` returns |
| `PasswordRoutes.RetrieveAfterSignupAndCreate` | backend/controllers/passwordController.js:53-96 | after signup and creation, the owner's retrieval reveals exactly the stored password and trimmed topic when every answer normalises like its signup answer, and is the logged 403 otherwise |
| `PasswordRoutes.RefusedRequestsChangeNothing` | backend/routes/passwordRoutes.js:9 | without a cookie, or with the logged-out placeholder, every vault request gets a 401 and changes nothing |

## Left out

- AES-256-CBC, bcrypt and HMAC-SHA256 are not modelled inside. Each is an argument. The cipher and the hasher have a `Sound` predicate stating the one property the backend relies on; `Jwt.Mac` has none, and the assumption that another secret signs differently is the `requires` of `Jwt.VerifyForeign`.
- The randomness of the IV and salts is not modelled. They are arguments, so the model says nothing about IV uniqueness.
- The bcrypt work factor and bcrypt's 72-byte input limit are not modelled.
- `toLowerCase` is modelled on ASCII letters only. `trim` removes ASCII whitespace, U+00A0, U+FEFF and the two line separators, but not the other Unicode space separators.
- UTF-8 encoding of the plaintext is not modelled. The cipher maps strings to bytes directly.
- Inside the ciphertext field, Node's hex decoding stops at the first pair that is not hex and feeds only the bytes before it to the cipher. The model decodes the field the same lenient way, after refusing a field of odd length as `decipher.update` does.
- Logout, `authRoutes.js` with its rate limiting, `server.js`, Express, CORS, cookie parsing and the frontend are not modelled. A cookie that does not parse as a token is the `Malformed` token.
- The item schema's `required` check on `userId` is not modelled as an error path. `createPassword` always supplies `userId`: it is the `_id` of the user `protect` attached.
- Errors from the store itself are not modelled: an unreachable database, an `_id` that is not a valid ObjectId, a failing `findById` inside `protect`.
- The 500 replies that forward `err.message` carry stand-in constants for the library's exception text.
- Logging is left out, except the audit line of a failed retrieval. That line is an intended security record (`passwordController.js:73-74`), so the model returns it beside the reply.
- The cookie's `secure` flag is not modelled. It depends only on `NODE_ENV` being `production` (`authController.js:17`), which is deployment configuration rather than request data.
- Request bodies are assumed to hold strings (or `isFavorite` a boolean) or to lack the field. `express.json()` also passes numbers, arrays and objects. A non-string username, password or answer makes `toLowerCase` or `bcrypt.compare` throw, which `login`, `signup` and `retrievePassword` answer with their 500. The model's `Option<string>` fields cannot express such a body.
- The signing secret `JWT_SECRET` is assumed configured. Nothing checks it at start-up, unlike the encryption key. Unset, `jwt.sign` throws inside `createSendToken`. At signup this happens after the user is stored, so that 500 would leave the new user in the collection, which the model's `Signup` never does.
- Concurrency is left out. Two requests never interleave in the model.
- `PasswordController.GetAllPasswords`: states which items the listing holds, not their order or multiplicity. The store's `find` returns them in collection order, and `Models.OwnedBy` keeps that order, but no ensures states it.

=== FILE: auth_controller.dfy ===
/**
  The account service of `backend/controllers/authController.js`: `signup`,
  `login` and the `createSendToken` helper both end in. Hashing, token
  signing and the clock come in as arguments.
 */
module AuthController {
  import opened Base
  import Text
  import Bcrypt
  import Jwt
  import Models

  /** The request bodies; a field the client left out is `None`. */
  datatype SignupBody = SignupBody(
    username: Option<string>, password: Option<string>,
    answer1: Option<string>, answer2: Option<string>, answer3: Option<string>)

  datatype LoginBody = LoginBody(username: Option<string>, password: Option<string>)

  /** The salts the four `bcrypt.hash` calls draw. */
  datatype Salts = Salts(password: Bcrypt.Salt, answer1: Bcrypt.Salt, answer2: Bcrypt.Salt, answer3: Bcrypt.Salt)

  /** The user document as it is serialised into a response; `None` is a field set to `undefined`. */
  datatype UserView = UserView(
    id: ObjectId, username: string,
    passwordHash: Option<string>, answerHash1: Option<string>,
    answerHash2: Option<string>, answerHash3: Option<string>,
    createdAt: Millis)

  datatype Cookie = Cookie(name: string, value: Jwt.Token, expires: Millis, httpOnly: bool)

  /** What a successful signup or login sends: the token, the cookie carrying it, and the user. */
  datatype Session = Session(token: Jwt.Token, cookie: Cookie, user: UserView)

  /** `90 * 24 * 60 * 60 * 1000`: the cookie lifetime in milliseconds. */
  const CookieLifetimeMillis: nat := 90 * 24 * 60 * 60 * 1000

  const MissingCredentialsMessage := "Please provide username and password."
  const IncorrectCredentialsMessage := "Incorrect username or password"
  const DuplicateUsernameMessage := "Username already exists."

  /** Stand-ins for the text of exceptions the handlers forward as `err.message`. */
  const HashArgumentsMessage := "Illegal arguments: undefined, number"
  const MissingAnswerMessage := "Cannot read properties of undefined (reading 'toLowerCase')"
  const UserValidationMessage := "User validation failed: username: " + Models.UsernameRequiredMessage

  /**
    `createSendToken`: sign `{ id }` for 90 days, set it as the `jwt`
    HTTP-only cookie, and serialise the user after clearing `passwordHash`
    and `answerHash1` (the other two answer digests are left in place).
   */
  function CreateSendToken(mac: Jwt.Mac, user: Models.User, now: Millis): (s: Session)
    ensures s.token.Jws? && s.token.claims.id == user.id
    ensures Jwt.Verify(mac, s.token, now) == Ok(s.token.claims)
    ensures s.cookie == Cookie("jwt", s.token, now + CookieLifetimeMillis, true)
    ensures s.token.claims.exp * 1000 <= s.cookie.expires < s.token.claims.exp * 1000 + 1000
    ensures s.user.id == user.id && s.user.username == user.username && s.user.createdAt == user.createdAt
    ensures s.user.passwordHash.None? && s.user.answerHash1.None?
    ensures s.user.answerHash2 == Some(user.answerHash2) && s.user.answerHash3 == Some(user.answerHash3)
  {
    var token := Jwt.Sign(mac, user.id, now);
    var cookie := Cookie("jwt", token, now + CookieLifetimeMillis, true);
    var view := UserView(user.id, user.username, None, None, Some(user.answerHash2), Some(user.answerHash3), user.createdAt);
    Session(token, cookie, view)
  }

  /** Every field of a signup body is present. */
  predicate Complete(body: SignupBody) {
    body.username.Some? && body.password.Some?
    && body.answer1.Some? && body.answer2.Some? && body.answer3.Some?
  }

  /**
    A complete body whose username normalises to something and whose four
    digests are all non-empty: what the user schema's `required` validators
    accept.
   */
  predicate Accepted(h: Bcrypt.Hasher, body: SignupBody, salts: Salts) {
    && Complete(body) && Text.Normalize(body.username.value) != ""
    && h.hash(body.password.value, salts.password) != ""
    && Bcrypt.HashAnswer(h, body.answer1.value, salts.answer1) != ""
    && Bcrypt.HashAnswer(h, body.answer2.value, salts.answer2) != ""
    && Bcrypt.HashAnswer(h, body.answer3.value, salts.answer3) != ""
  }

  /**
    `signup`: hash the password verbatim and each answer normalised, create
    the user, and answer 201 with a session. A duplicate key is the 400
    "Username already exists."; every other failure is a 500 and leaves
    the users collection unchanged.
   */
  function Signup(h: Bcrypt.Hasher, mac: Jwt.Mac, users: seq<Models.User>, body: SignupBody,
                  salts: Salts, id: ObjectId, now: Millis): (r: (seq<Models.User>, Reply<Session>))
    ensures r.1.Fail? ==> r.0 == users && (r.1.status == 400 || r.1.status == 500)
    ensures r.1.Fail? && r.1.status == 400 ==> r.1.message == DuplicateUsernameMessage
    ensures r.1.Success? ==> Complete(body) && r.1.status == 201
    ensures r.1.Success? ==> var u := Models.User(
        id, Text.Normalize(body.username.value),
        h.hash(body.password.value, salts.password),
        Bcrypt.HashAnswer(h, body.answer1.value, salts.answer1),
        Bcrypt.HashAnswer(h, body.answer2.value, salts.answer2),
        Bcrypt.HashAnswer(h, body.answer3.value, salts.answer3),
        now);
      r.0 == users + [u] && r.1.data == CreateSendToken(mac, u, now)
    ensures Models.ValidUsers(users) ==> Models.ValidUsers(r.0)
    ensures r.1.Success? <==>
      Accepted(h, body, salts) && !Models.UserKeyTaken(users, id, Text.Normalize(body.username.value))
    ensures r.1 == Fail(400, DuplicateUsernameMessage) <==>
      Accepted(h, body, salts) && Models.UserKeyTaken(users, id, Text.Normalize(body.username.value))
  {
    if body.password.None? then (users, Fail(500, HashArgumentsMessage))
    else
      var passwordHash := h.hash(body.password.value, salts.password);
      if body.answer1.None? || body.answer2.None? || body.answer3.None? then (users, Fail(500, MissingAnswerMessage))
      else
        var a1 := Bcrypt.HashAnswer(h, body.answer1.value, salts.answer1);
        var a2 := Bcrypt.HashAnswer(h, body.answer2.value, salts.answer2);
        var a3 := Bcrypt.HashAnswer(h, body.answer3.value, salts.answer3);
        match Models.CreateUser(users, id, body.username, passwordHash, a1, a2, a3, now)
        case Err(DuplicateKey) => (users, Fail(400, DuplicateUsernameMessage))
        case Err(ValidationError(_)) => (users, Fail(500, UserValidationMessage))
        case Ok((users', u)) => (users', Success(201, CreateSendToken(mac, u, now)))
  }

  /**
    `login`: a missing or empty field is a 400 before any lookup; an
    unknown username and a wrong password are the same 401; otherwise 200
    with a session for the user found.
   */
  function Login(h: Bcrypt.Hasher, mac: Jwt.Mac, users: seq<Models.User>, body: LoginBody, now: Millis): (r: Reply<Session>)
    ensures r.Fail? ==> r == Fail(400, MissingCredentialsMessage) || r == Fail(401, IncorrectCredentialsMessage)
    ensures r == Fail(400, MissingCredentialsMessage) <==>
      body.username.None? || body.username.value == "" || body.password.None? || body.password.value == ""
    ensures r.Success? ==> r.status == 200
    ensures r.Success? ==>
      exists i :: 0 <= i < |users| && users[i].username == Text.Normalize(body.username.value)
                  && h.compare(body.password.value, users[i].passwordHash)
                  && r.data == CreateSendToken(mac, users[i], now)
  {
    if body.username.None? || body.username.value == "" || body.password.None? || body.password.value == "" then
      Fail(400, MissingCredentialsMessage)
    else
      match Models.FindUserByUsername(users, Text.ToLower(body.username.value))
      case None => Fail(401, IncorrectCredentialsMessage)
      case Some(u) =>
        Text.NormalizeOfLower(body.username.value);
        if !h.compare(body.password.value, u.passwordHash) then Fail(401, IncorrectCredentialsMessage)
        else Success(200, CreateSendToken(mac, u, now))
  }

  // ----- properties -----

  /**
    With a sound hasher, signup succeeds exactly when every field is
    present, the normalised username is not empty, and neither the
    username nor the new `_id` is taken; a taken one is the 400.
   */
  lemma SignupOutcome(h: Bcrypt.Hasher, mac: Jwt.Mac, users: seq<Models.User>, body: SignupBody,
                      salts: Salts, id: ObjectId, now: Millis)
    requires Bcrypt.Sound(h) && Complete(body) && Text.Normalize(body.username.value) != ""
    ensures Signup(h, mac, users, body, salts, id, now).1.Success? <==>
      !Models.UserKeyTaken(users, id, Text.Normalize(body.username.value))
    ensures Signup(h, mac, users, body, salts, id, now).1 == Fail(400, DuplicateUsernameMessage) <==>
      Models.UserKeyTaken(users, id, Text.Normalize(body.username.value))
  {
    assert h.hash(body.password.value, salts.password) != "";
    assert Bcrypt.HashAnswer(h, body.answer1.value, salts.answer1) != "";
    assert Bcrypt.HashAnswer(h, body.answer2.value, salts.answer2) != "";
    assert Bcrypt.HashAnswer(h, body.answer3.value, salts.answer3) != "";
    assert Accepted(h, body, salts);
  }

  /** Once a username is registered, any name normalising to it is refused as a duplicate. */
  lemma SignupThenSameNameIsDuplicate(h: Bcrypt.Hasher, mac: Jwt.Mac, users: seq<Models.User>, body: SignupBody,
                                      salts: Salts, id: ObjectId, now: Millis,
                                      again: SignupBody, salts2: Salts, id2: ObjectId, later: Millis)
    requires Bcrypt.Sound(h) && Complete(again)
    requires Signup(h, mac, users, body, salts, id, now).1.Success?
    requires Text.Normalize(again.username.value) == Text.Normalize(body.username.value) != ""
    ensures Signup(h, mac, Signup(h, mac, users, body, salts, id, now).0, again, salts2, id2, later).1
            == Fail(400, DuplicateUsernameMessage)
  {
    var users' := Signup(h, mac, users, body, salts, id, now).0;
    assert users'[|users|].username == Text.Normalize(body.username.value);
    SignupOutcome(h, mac, users', again, salts2, id2, later);
  }

  lemma AliceLower()
    ensures Text.Normalize("alice") == "alice"
  {
    var l := Text.ToLower("alice");
    assert l[0] == 'a' && l[1] == 'l' && l[2] == 'i' && l[3] == 'c' && l[4] == 'e';
    assert l == "alice";
    Text.TrimOfTrimmed("alice");
  }

  lemma AliceUpper()
    ensures Text.ToUpper("alice") + " " == "ALICE "
  {
    var u := Text.ToUpper("alice");
    assert u[0] == 'A' && u[1] == 'L' && u[2] == 'I' && u[3] == 'C' && u[4] == 'E';
    assert u == "ALICE";
  }

  /** "alice" and "ALICE " are stored as the same username, so they collide (see the lemma above). */
  lemma AliceVariants()
    ensures Text.Normalize("alice") == "alice" && Text.Normalize("ALICE ") == "alice"
  {
    AliceLower();
    var padded := [] + Text.ToUpper("alice") + " ";
    Text.NormalizeIgnoresCaseAndPadding([], "alice", " ");
    assert padded == Text.ToUpper("alice") + " ";
    AliceUpper();
    assert padded == "ALICE ";
  }

  /** A username no stored user normalises to is refused with the generic 401. */
  lemma LoginUnknown(h: Bcrypt.Hasher, mac: Jwt.Mac, users: seq<Models.User>, body: LoginBody, now: Millis)
    requires body.username.Some? && body.username.value != "" && body.password.Some? && body.password.value != ""
    requires forall k :: 0 <= k < |users| ==> users[k].username != Text.Normalize(body.username.value)
    ensures Login(h, mac, users, body, now) == Fail(401, IncorrectCredentialsMessage)
  {
    UnknownAfterLowering(users, body.username.value);
  }

  /** The lookup `login` makes with the lower-cased name finds no user whose stored name differs from its normal form. */
  lemma UnknownAfterLowering(users: seq<Models.User>, name: string)
    requires forall k :: 0 <= k < |users| ==> users[k].username != Text.Normalize(name)
    ensures Models.FindUserByUsername(users, Text.ToLower(name)) == None
  {
    Text.NormalizeOfLower(name);
  }

  /**
    For the stored user the lookup finds, login is decided by the password
    alone: a session for that user, or the generic 401.
   */
  lemma LoginKnown(h: Bcrypt.Hasher, mac: Jwt.Mac, users: seq<Models.User>, u: Models.User, body: LoginBody, now: Millis)
    requires body.username.Some? && body.username.value != "" && body.password.Some? && body.password.value != ""
    requires Models.FindUserByUsername(users, body.username.value) == Some(u)
    ensures h.compare(body.password.value, u.passwordHash) ==>
      Login(h, mac, users, body, now) == Success(200, CreateSendToken(mac, u, now))
    ensures !h.compare(body.password.value, u.passwordHash) ==>
      Login(h, mac, users, body, now) == Fail(401, IncorrectCredentialsMessage)
  {
    Text.NormalizeOfLower(body.username.value);
    Models.FindUserByUsernameFilter(users, body.username.value, Text.ToLower(body.username.value));
  }

  /** An unknown username and a wrong password for a known one give the identical reply. */
  lemma LoginFailuresIndistinguishable(h: Bcrypt.Hasher, mac: Jwt.Mac, unknownIn: seq<Models.User>,
                                       knownIn: seq<Models.User>, i: nat, body: LoginBody, now: Millis)
    requires body.username.Some? && body.username.value != "" && body.password.Some? && body.password.value != ""
    requires forall k :: 0 <= k < |unknownIn| ==> unknownIn[k].username != Text.Normalize(body.username.value)
    requires Models.ValidUsers(knownIn) && i < |knownIn| && knownIn[i].username == Text.Normalize(body.username.value)
    requires !h.compare(body.password.value, knownIn[i].passwordHash)
    ensures Login(h, mac, unknownIn, body, now) == Login(h, mac, knownIn, body, now) == Fail(401, IncorrectCredentialsMessage)
  {
    LoginUnknown(h, mac, unknownIn, body, now);
    Models.FindUserByUsernameUnique(knownIn, i, body.username.value);
    LoginKnown(h, mac, knownIn, knownIn[i], body, now);
  }

  /**
    Signing up and then logging in with the same username (in any case
    and padding) and the same password gives a session for the new user;
    any other password is refused.
   */
  lemma SignupThenLogin(h: Bcrypt.Hasher, mac: Jwt.Mac, users: seq<Models.User>, body: SignupBody,
                        salts: Salts, id: ObjectId, now: Millis, login: LoginBody, later: Millis)
    requires Bcrypt.Sound(h) && Models.ValidUsers(users)
    requires Signup(h, mac, users, body, salts, id, now).1.Success?
    requires login.username.Some? && login.username.value != "" && login.password.Some? && login.password.value != ""
    requires Text.Normalize(login.username.value) == Text.Normalize(body.username.value)
    ensures login.password == body.password ==>
      Login(h, mac, Signup(h, mac, users, body, salts, id, now).0, login, later).Success?
      && Login(h, mac, Signup(h, mac, users, body, salts, id, now).0, login, later).data.token.claims.id == id
    ensures login.password != body.password ==>
      Login(h, mac, Signup(h, mac, users, body, salts, id, now).0, login, later) == Fail(401, IncorrectCredentialsMessage)
  {
    var users' := Signup(h, mac, users, body, salts, id, now).0;
    var u := users'[|users|];
    assert u.username == Text.Normalize(login.username.value);
    assert u.passwordHash == h.hash(body.password.value, salts.password);
    assert h.compare(login.password.value, u.passwordHash) <==> login.password == body.password;
    Models.FindUserByUsernameUnique(users', |users|, login.username.value);
    LoginKnown(h, mac, users', u, login, later);
  }
}

=== FILE: auth_middleware.dfy ===
/**
  The `protect` middleware of `backend/middleware/authMiddleware.js`: the
  gate in front of every vault route. It reads the `jwt` cookie, verifies
  it, reloads the user it names, and either hands that user to the handler
  or answers 401.
 */
module AuthMiddleware {
  import opened Base
  import Jwt
  import Models

  const NotLoggedInMessage := "You are not logged in! Please log in to get access."
  const UserGoneMessage := "The user belonging to this token no longer exists."
  const InvalidTokenMessage := "Invalid or expired token. Please log in again."

  /** Either the freshly loaded user is attached to the request, or the request is answered. */
  datatype Decision = Granted(user: Models.User) | Denied(status: int, message: string)

  /** `if (req.cookies.jwt)`: the cookie is there and is not the empty string. */
  predicate HasToken(cookie: Option<Jwt.Token>) {
    cookie.Some? && cookie.value != Jwt.Malformed("")
  }

  /** The user the token names exists in the collection. */
  predicate Known(users: seq<Models.User>, id: ObjectId) {
    exists i :: 0 <= i < |users| && users[i].id == id
  }

  /**
    `protect`: no token, a token that fails verification (forged, malformed
    or expired, all with one message), and a token for a user who no longer
    exists are each a 401; otherwise the user loaded by the token's id.
   */
  function Protect(mac: Jwt.Mac, users: seq<Models.User>, cookie: Option<Jwt.Token>, now: Millis): (d: Decision)
    ensures d.Denied? ==> d.status == 401
    ensures !HasToken(cookie) ==> d == Denied(401, NotLoggedInMessage)
    ensures HasToken(cookie) && Jwt.Verify(mac, cookie.value, now).Err? ==> d == Denied(401, InvalidTokenMessage)
    ensures HasToken(cookie) && Jwt.Verify(mac, cookie.value, now).Ok? && !Known(users, Jwt.Verify(mac, cookie.value, now).value.id) ==>
      d == Denied(401, UserGoneMessage)
    ensures d.Granted? <==>
      HasToken(cookie) && Jwt.Verify(mac, cookie.value, now).Ok? && Known(users, Jwt.Verify(mac, cookie.value, now).value.id)
    ensures d.Granted? ==> d.user in users && d.user.id == Jwt.Verify(mac, cookie.value, now).value.id
  {
    if !HasToken(cookie) then Denied(401, NotLoggedInMessage)
    else
      match Jwt.Verify(mac, cookie.value, now)
      case Err(_) => Denied(401, InvalidTokenMessage)
      case Ok(claims) =>
        match Models.FindUserById(users, claims.id)
        case None => Denied(401, UserGoneMessage)
        case Some(u) => Granted(u)
  }

  /**
    A token the server signed for a stored user opens the gate until 90
    days after issue, and the request then carries exactly that user.
   */
  lemma ProtectAdmitsIssuedToken(mac: Jwt.Mac, users: seq<Models.User>, i: nat, issued: Millis, now: Millis)
    requires Models.ValidUsers(users) && i < |users|
    requires Jwt.Seconds(now) < Jwt.Seconds(issued) + Jwt.LifetimeSeconds
    ensures Protect(mac, users, Some(Jwt.Sign(mac, users[i].id, issued)), now) == Granted(users[i])
  {
  }

  /**
    At the same moment, an expired token and a forged one for the same id
    are refused with the very same answer.
   */
  lemma ExpiredAndForgedAlike(mac: Jwt.Mac, other: Jwt.Mac, users: seq<Models.User>, id: ObjectId, issued: Millis, now: Millis)
    requires other(Jwt.Sign(other, id, issued).claims) != mac(Jwt.Sign(other, id, issued).claims)
    requires Jwt.Seconds(now) >= Jwt.Seconds(issued) + Jwt.LifetimeSeconds
    ensures Protect(mac, users, Some(Jwt.Sign(mac, id, issued)), now)
         == Protect(mac, users, Some(Jwt.Sign(other, id, issued)), now)
         == Denied(401, InvalidTokenMessage)
  {
    Jwt.VerifySigned(mac, id, issued, now);
    Jwt.VerifyForeign(mac, other, id, issued, now);
  }
}

=== FILE: base.dfy ===
/**
  Shared vocabulary of the vault backend model: optional values, results,
  bytes, and the HTTP-shaped replies the controllers send.
 */
module Base {

  /** An unsigned 8-bit value, as held in a Node `Buffer`. */
  newtype byte = x: int | 0 <= x < 256

  datatype Option<+T> = None | Some(value: T)

  datatype Result<+T, +E> = Ok(value: T) | Err(error: E)

  /**
    What a controller writes back: a success status with its `data`
    payload, or a failure status with its `message`.
   */
  datatype Reply<+T> = Success(status: int, data: T) | Fail(status: int, message: string)

  /** A milliseconds-since-epoch instant, as `Date.now()` gives it. */
  type Millis = nat

  /** A document `_id`, compared by value (the source compares `toString()` forms). */
  type ObjectId = nat
}

=== FILE: bcrypt.dfy ===
/**
  The password-hashing library (`bcryptjs`) as the backend uses it: `hash`
  with a fresh salt, and `compare` of a raw value against a digest. Both are
  foreign; `Sound` states what the backend assumes of them.
 */
module Bcrypt {
  import Text

  /** The salt `hash` draws at random; an argument here. */
  type Salt = nat

  /** A digest string (`$2a$...`), embedding its salt. */
  type Digest = string

  datatype Hasher = Hasher(hash: (string, Salt) -> Digest, compare: (string, Digest) -> bool)

  /**
    A digest verifies its own preimage and no other, and is never the empty
    string (which the user schema would refuse as missing).
   */
  ghost predicate Sound(h: Hasher) {
    && (forall x: string, s: Salt :: h.compare(x, h.hash(x, s)))
    && (forall x: string, y: string, s: Salt :: h.compare(y, h.hash(x, s)) ==> y == x)
    && (forall x: string, s: Salt :: h.hash(x, s) != "")
  }

  /** How a security answer is hashed at signup: `hash(answer.toLowerCase().trim())`. */
  function HashAnswer(h: Hasher, answer: string, salt: Salt): (d: Digest)
    ensures Sound(h) ==> d != ""
    ensures Sound(h) ==> forall y: string :: h.compare(y, d) <==> y == Text.Normalize(answer)
  {
    h.hash(Text.Normalize(answer), salt)
  }

  /** How a security answer is checked at retrieval: `compare(answer.toLowerCase().trim(), digest)`. */
  predicate AnswerMatches(h: Hasher, answer: string, digest: Digest): (r: bool)
    ensures Sound(h) ==> forall x: string, s: Salt :: digest == h.hash(x, s) ==> (r <==> x == Text.Normalize(answer))
  {
    h.compare(Text.Normalize(answer), digest)
  }

  /** A submitted answer verifies against a stored answer digest exactly when both normalise alike. */
  lemma AnswerMatchesIff(h: Hasher, given: string, original: string, salt: Salt)
    requires Sound(h)
    ensures AnswerMatches(h, given, HashAnswer(h, original, salt)) <==> Text.Normalize(given) == Text.Normalize(original)
  {
  }

  /** Answers that differ from the original only in case or surrounding whitespace verify. */
  lemma AnswerVariantsMatch(h: Hasher, pre: string, original: string, post: string, salt: Salt)
    requires Sound(h)
    requires Text.AllSpace(pre) && Text.AllSpace(post)
    ensures AnswerMatches(h, pre + Text.ToUpper(original) + post, HashAnswer(h, original, salt))
    ensures AnswerMatches(h, pre + original + post, HashAnswer(h, original, salt))
  {
    Text.NormalizeIgnoresCaseAndPadding(pre, original, post);
  }

  /**
    The login password is compared verbatim: it verifies only when it is
    exactly the signup password, so a change of case or a trailing space
    is a wrong password.
   */
  lemma PasswordMatchesIff(h: Hasher, given: string, original: string, salt: Salt)
    requires Sound(h)
    ensures h.compare(given, h.hash(original, salt)) <==> given == original
  {
  }
}

=== FILE: crypto_utils.dfy ===
/**
  The secret envelope of `backend/utils/cryptoUtils.js`: the start-up key
  guard, `encrypt` (fresh 16-byte IV, AES-256-CBC, `hex(iv):hex(ct)`) and
  `decrypt` (split on `:`, exactly two parts, one generic error for every
  failure).

  AES-256-CBC is a foreign primitive: it enters as a `Cipher` value whose
  only promise, `Sound`, is that deciphering under the same key and IV
  returns the enciphered text.
 */
module CryptoUtils {
  import opened Base
  import Text
  import Hex

  /** `aes-256-cbc` takes a 32-byte key and a 16-byte IV. */
  const KeyLength: nat := 32
  const IvLength: nat := 16

  type Key = k: seq<byte> | |k| == KeyLength witness seq(32, _ => 0 as byte)
  type Iv = v: seq<byte> | |v| == IvLength witness seq(16, _ => 0 as byte)

  /**
    The block-cipher mode as seen through `createCipheriv`/`createDecipheriv`:
    `enc` is `update` + `final` on the UTF-8 text, `dec` the same in reverse,
    `None` where `final` throws (bad padding, truncated input).
   */
  datatype Cipher = Cipher(enc: (Key, Iv, string) -> seq<byte>, dec: (Key, Iv, seq<byte>) -> Option<string>)

  /** The one property of the cipher the backend relies on. */
  ghost predicate Sound(c: Cipher) {
    forall k: Key, iv: Iv, p: string :: c.dec(k, iv, c.enc(k, iv, p)) == Some(p)
  }

  // ----- start-up key guard -----

  datatype StartupError = MissingKey | WrongKeyLength(bytes: nat)

  /**
    The module-load guard on `ENCRYPTION_KEY_SECRET`: an unset or empty
    value is fatal, and so is one whose hex decoding is not 32 bytes. The
    process exits on `Err`, so no encryption ever runs without a `Key`.
   */
  function LoadKey(secret: Option<string>): (r: Result<Key, StartupError>)
    ensures r == Err(MissingKey) <==> secret.None? || secret.value == ""
    ensures r.Ok? <==> secret.Some? && secret.value != "" && |Hex.Decode(secret.value)| == KeyLength
    ensures r.Ok? ==> Hex.Encode(r.value) == LowerHexOf(secret.value[..2 * KeyLength])
  {
    if secret.None? || secret.value == "" then Err(MissingKey)
    else
      var bytes := Hex.Decode(secret.value);
      if |bytes| != KeyLength then Err(WrongKeyLength(|bytes|))
      else
        DecodePrefix(secret.value);
        Ok(bytes)
  }

  /** The decoded bytes are the decoding of an even-length lower- or upper-case hex prefix; re-encoding lower-cases it. */
  lemma {:induction false} DecodePrefix(s: string)
    ensures 2 * |Hex.Decode(s)| <= |s|
    ensures Hex.Encode(Hex.Decode(s)) == LowerHexOf(s[..2 * |Hex.Decode(s)|])
  {
    var b := Hex.Decode(s);
    if b != [] {
      DecodePrefix(s[2..]);
      var hi, lo := Hex.DigitValue(s[0]).value, Hex.DigitValue(s[1]).value;
      var v := hi * 16 + lo;
      assert v / 16 == hi && v % 16 == lo;
      assert b[1..] == Hex.Decode(s[2..]);
      assert s[..2 * |b|][2..] == s[2..][..2 * |b[1..]|];
    }
  }

  /** Lower-case the letters of hex text, digit by digit. */
  function LowerHexOf(s: string): (r: string)
    ensures |r| == |s|
  {
    if |s| < 2 then s
    else
      var rest := LowerHexOf(s[2..]);
      match (Hex.DigitValue(s[0]), Hex.DigitValue(s[1]))
      case (Some(hi), Some(lo)) => [Hex.Digit(hi), Hex.Digit(lo)] + rest
      case _ => s[..2] + rest
  }

  /** A key written as its 64-character lower-case hex form is accepted as exactly those bytes. */
  lemma LoadKeyOfEncoded(k: Key)
    ensures LoadKey(Some(Hex.Encode(k))) == Ok(k)
  {
    Hex.DecodeEncode(k);
  }

  /** A value shorter than 64 characters cannot decode to 32 bytes and stops the process. */
  lemma ShortKeyRejected(s: string)
    requires |s| < 2 * KeyLength
    ensures LoadKey(Some(s)).Err?
  {
  }

  /**
    The guard tests the decoded length, not the text: 64 hex digits followed
    by text that does not begin with a hex pair pass it, the tail being
    dropped by the decoder.
   */
  lemma LoadKeyIgnoresTrailingText(k: Key, tail: string)
    requires |tail| < 2 || Hex.DigitValue(tail[0]).None? || Hex.DigitValue(tail[1]).None?
    ensures LoadKey(Some(Hex.Encode(k) + tail)) == Ok(k)
  {
    Hex.DecodeEncodeThen(k, tail);
    assert Hex.Decode(tail) == [];
    assert k + [] == k;
  }

  // ----- the envelope -----

  /** The separator between the two hex fields of an envelope. */
  const Separator: char := ':'

  /** An envelope in structured form: the IV bytes and the ciphertext bytes. */
  datatype Envelope = Envelope(iv: seq<byte>, ct: seq<byte>)

  /** `iv.toString('hex') + ':' + encrypted`. */
  function Serialize(e: Envelope): (s: string)
    ensures Text.Count(s, Separator) == 1
    ensures |s| == 2 * |e.iv| + 1 + 2 * |e.ct|
    ensures s[..2 * |e.iv|] == Hex.Encode(e.iv) && s[2 * |e.iv|] == Separator
    ensures Canonical(s)
  {
    var a := Hex.Encode(e.iv);
    var b := Hex.Encode(e.ct);
    var s := a + [Separator] + b;
    Hex.NoColon(e.iv);
    Hex.NoColon(e.ct);
    Text.SplitTwo(a, b, Separator);
    assert Text.Split(s, Separator) == [a, b];
    assert s[..|a|] == a;
    s
  }

  /** `text.split(':')` must give exactly two parts; each is read with `Buffer.from(_, 'hex')`. */
  function Parse(text: string): (r: Option<Envelope>)
    ensures r.Some? <==> Text.Count(text, Separator) == 1
  {
    var parts := Text.Split(text, Separator);
    if |parts| != 2 then None
    else Some(Envelope(Hex.Decode(parts[0]), Hex.Decode(parts[1])))
  }

  /** Parsing inverts serialising. */
  lemma ParseSerialize(e: Envelope)
    ensures Parse(Serialize(e)) == Some(e)
  {
    Hex.NoColon(e.iv);
    Hex.NoColon(e.ct);
    Text.SplitTwo(Hex.Encode(e.iv), Hex.Encode(e.ct), Separator);
    Hex.DecodeEncode(e.iv);
    Hex.DecodeEncode(e.ct);
  }

  /** An envelope in the canonical form `encrypt` writes. */
  predicate Canonical(text: string) {
    var parts := Text.Split(text, Separator);
    |parts| == 2
    && |parts[0]| % 2 == 0 && Hex.IsLowerHex(parts[0])
    && |parts[1]| % 2 == 0 && Hex.IsLowerHex(parts[1])
  }

  /** Serialising inverts parsing on canonical text. */
  lemma SerializeParse(text: string)
    requires Canonical(text)
    ensures Parse(text).Some? && Serialize(Parse(text).value) == text
  {
    var parts := Text.Split(text, Separator);
    Hex.EncodeDecode(parts[0]);
    Hex.EncodeDecode(parts[1]);
    Text.JoinSplit(text, Separator);
    assert parts[1..] == [parts[1]];
  }

  // ----- encrypt / decrypt -----

  /**
    `encrypt(text)` with the IV that `crypto.randomBytes(16)` produced,
    taken here as an argument.
   */
  function Encrypt(c: Cipher, key: Key, iv: Iv, text: string): (s: string)
    ensures |s| > 2 * IvLength && s[..2 * IvLength] == Hex.Encode(iv) && s[2 * IvLength] == Separator
    ensures Hex.IsLowerHex(s[..2 * IvLength])
    ensures Text.Count(s, Separator) == 1
    ensures Canonical(s)
  {
    Serialize(Envelope(iv, c.enc(key, iv, text)))
  }

  /** The one error `decrypt` rethrows, whatever went wrong inside. */
  datatype DecryptError = DecryptFailed

  const DecryptFailedMessage := "Failed to decrypt data."

  /**
    `decrypt(text)`: a wrong part count, an IV that does not decode to 16
    bytes (`createDecipheriv` throws), a ciphertext field of odd length
    (`decipher.update` refuses hex that is not whole bytes) and a failing
    `final` all become `DecryptFailed`; the plaintext is returned only when
    the cipher accepted the whole ciphertext.
   */
  function Decrypt(c: Cipher, key: Key, text: string): (r: Result<string, DecryptError>)
    ensures Text.Count(text, Separator) != 1 ==> r == Err(DecryptFailed)
    ensures Parse(text).Some? && |Text.Split(text, Separator)[1]| % 2 != 0 ==> r == Err(DecryptFailed)
    ensures r.Ok? ==> exists iv: Iv :: Parse(text) == Some(Envelope(iv, Parse(text).value.ct))
                                      && c.dec(key, iv, Parse(text).value.ct) == Some(r.value)
    ensures r.Ok? <==> Parse(text).Some? && |Parse(text).value.iv| == IvLength
                       && |Text.Split(text, Separator)[1]| % 2 == 0
                       && c.dec(key, Parse(text).value.iv, Parse(text).value.ct).Some?
  {
    match Parse(text)
    case None => Err(DecryptFailed)
    case Some(e) =>
      if |e.iv| != IvLength then Err(DecryptFailed)
      else if |Text.Split(text, Separator)[1]| % 2 != 0 then Err(DecryptFailed)
      else
        match c.dec(key, e.iv, e.ct)
        case None => Err(DecryptFailed)
        case Some(p) => Ok(p)
  }

  /** Round trip: with a sound cipher, decrypting what `encrypt` wrote returns the plaintext. */
  lemma DecryptEncrypt(c: Cipher, key: Key, iv: Iv, text: string)
    requires Sound(c)
    ensures Decrypt(c, key, Encrypt(c, key, iv, text)) == Ok(text)
  {
    var e := Envelope(iv, c.enc(key, iv, text));
    ParseSerialize(e);
    Hex.NoColon(e.iv);
    Hex.NoColon(e.ct);
    Text.SplitTwo(Hex.Encode(e.iv), Hex.Encode(e.ct), Separator);
  }

  /**
    An envelope with one extra hex digit appended fails: the ciphertext
    field no longer holds whole bytes, whatever the cipher.
   */
  lemma DecryptRejectsOddCiphertext(c: Cipher, key: Key, iv: Iv, text: string)
    ensures Decrypt(c, key, Encrypt(c, key, iv, text) + "0") == Err(DecryptFailed)
  {
    var a := Hex.Encode(iv);
    var b := Hex.Encode(c.enc(key, iv, text));
    var b' := b + "0";
    Hex.NoColon(iv);
    Hex.NoColon(c.enc(key, iv, text));
    assert Separator !in b';
    assert Encrypt(c, key, iv, text) + "0" == a + [Separator] + b';
    Text.SplitTwo(a, b', Separator);
  }

  /** Text whose IV field does not decode to 16 bytes fails, whatever the cipher. */
  lemma DecryptRejectsBadIv(c: Cipher, key: Key, text: string)
    requires Parse(text).Some? && |Parse(text).value.iv| != IvLength
    ensures Decrypt(c, key, text) == Err(DecryptFailed)
  {
  }
}

=== FILE: hex.dfy ===
/**
  Node's `'hex'` buffer encoding. Encoding writes two lower-case digits per
  byte; decoding (`Buffer.from(s, 'hex')`) accepts either case and stops at
  the first pair that is not two hex digits, dropping a trailing odd digit.
 */
module Hex {
  import opened Base

  /** The digits `buf.toString('hex')` writes. */
  predicate IsLowerHexDigit(c: char) {
    ('0' <= c <= '9') || ('a' <= c <= 'f')
  }

  predicate IsLowerHex(s: string) {
    forall i :: 0 <= i < |s| ==> IsLowerHexDigit(s[i])
  }

  function Digit(n: int): (c: char)
    requires 0 <= n < 16
    ensures IsLowerHexDigit(c)
  {
    if n < 10 then ('0' as int + n) as char else ('a' as int + n - 10) as char
  }

  /** The value of one hex digit in either case, if it is one. */
  function DigitValue(c: char): (v: Option<int>)
    ensures v.Some? ==> 0 <= v.value < 16
    ensures IsLowerHexDigit(c) ==> v.Some?
  {
    if '0' <= c <= '9' then Some(c as int - '0' as int)
    else if 'a' <= c <= 'f' then Some(c as int - 'a' as int + 10)
    else if 'A' <= c <= 'F' then Some(c as int - 'A' as int + 10)
    else None
  }

  /** `buf.toString('hex')`. */
  function Encode(b: seq<byte>): (s: string)
    ensures |s| == 2 * |b|
    ensures IsLowerHex(s)
  {
    if b == [] then []
    else [Digit(b[0] as int / 16), Digit(b[0] as int % 16)] + Encode(b[1..])
  }

  /** `Buffer.from(s, 'hex')`: decode digit pairs up to the first invalid one. */
  function Decode(s: string): (b: seq<byte>)
    ensures 2 * |b| <= |s|
  {
    if |s| < 2 || DigitValue(s[0]).None? || DigitValue(s[1]).None? then []
    else [(DigitValue(s[0]).value * 16 + DigitValue(s[1]).value) as byte] + Decode(s[2..])
  }

  lemma DigitRoundTrip(n: int)
    requires 0 <= n < 16
    ensures DigitValue(Digit(n)) == Some(n)
  {
  }

  /** Decoding the encoding of a buffer, followed by anything, yields the buffer first. */
  lemma {:induction false} DecodeEncodeThen(b: seq<byte>, t: string)
    ensures Decode(Encode(b) + t) == b + Decode(t)
  {
    if b != [] {
      var hi, lo := b[0] as int / 16, b[0] as int % 16;
      DigitRoundTrip(hi);
      DigitRoundTrip(lo);
      var rest := Encode(b[1..]) + t;
      var s := Encode(b) + t;
      assert s == [Digit(hi), Digit(lo)] + rest;
      assert s[2..] == rest;
      assert (hi * 16 + lo) as byte == b[0];
      DecodeEncodeThen(b[1..], t);
      assert Decode(s) == [b[0]] + Decode(rest);
      assert [b[0]] + b[1..] == b;
    } else {
      assert Encode(b) + t == t;
    }
  }

  /** Decoding inverts encoding: `Buffer.from(buf.toString('hex'), 'hex')` equals `buf`. */
  lemma DecodeEncode(b: seq<byte>)
    ensures Decode(Encode(b)) == b
  {
    DecodeEncodeThen(b, []);
    assert Encode(b) + [] == Encode(b);
  }

  /** Encoding inverts decoding on even-length lower-case hex, the only text `Encode` produces. */
  lemma {:induction false} EncodeDecode(s: string)
    requires |s| % 2 == 0 && IsLowerHex(s)
    ensures Encode(Decode(s)) == s
  {
    if s != [] {
      var hi, lo := DigitValue(s[0]).value, DigitValue(s[1]).value;
      var v := hi * 16 + lo;
      assert v / 16 == hi && v % 16 == lo;
      assert Digit(hi) == s[0] && Digit(lo) == s[1];
      EncodeDecode(s[2..]);
      assert s == [s[0], s[1]] + s[2..];
    }
  }

  /** Hex text never contains the envelope separator. */
  lemma NoColon(b: seq<byte>)
    ensures ':' !in Encode(b)
  {
  }
}

=== FILE: jwt.dfy ===
/**
  The session token (`jsonwebtoken`) as the backend uses it: `sign({id},
  secret, {expiresIn: '90d'})` and `verify(token, secret)`. The signature
  scheme is foreign: a `Mac` stands for HMAC under the server's
  `JWT_SECRET`, and a token is the signed claims or something that does not
  parse as a token at all.
 */
module Jwt {
  import opened Base

  /** `'90d'` in seconds, the unit of `iat` and `exp`. */
  const LifetimeSeconds: nat := 90 * 24 * 60 * 60

  /** The payload: the account id, and the issue and expiry instants in seconds. */
  datatype Claims = Claims(id: ObjectId, iat: int, exp: int)

  /** The keyed signature function; two different secrets are two different `Mac`s. */
  type Mac = Claims -> nat

  datatype Token = Jws(claims: Claims, signature: nat) | Malformed(raw: string)

  /** Seconds since the epoch, as the library reads the clock: `Math.floor(Date.now() / 1000)`. */
  function Seconds(now: Millis): nat
  {
    now / 1000
  }

  /** `jwt.sign({ id }, secret, { expiresIn: '90d' })`. */
  function Sign(mac: Mac, id: ObjectId, now: Millis): (t: Token)
    ensures t.Jws? && t.claims.id == id
    ensures t.claims.exp - t.claims.iat == LifetimeSeconds && t.claims.iat == Seconds(now)
    ensures t.signature == mac(t.claims)
  {
    var c := Claims(id, Seconds(now), Seconds(now) + LifetimeSeconds);
    Jws(c, mac(c))
  }

  /** The library's two failure kinds; the middleware answers both alike. */
  datatype TokenError = InvalidToken | ExpiredToken

  /**
    `jwt.verify(token, secret)`: the signature is checked first, then the
    expiry, which has passed once the current second reaches `exp`.
   */
  function Verify(mac: Mac, t: Token, now: Millis): (r: Result<Claims, TokenError>)
    ensures r.Ok? <==> t.Jws? && t.signature == mac(t.claims) && Seconds(now) < t.claims.exp
    ensures r.Ok? ==> r.value == t.claims
    ensures r == Err(ExpiredToken) ==> t.Jws? && t.signature == mac(t.claims)
  {
    match t
    case Malformed(_) => Err(InvalidToken)
    case Jws(c, sig) =>
      if sig != mac(c) then Err(InvalidToken)
      else if Seconds(now) >= c.exp then Err(ExpiredToken)
      else Ok(c)
  }

  /** A freshly issued token verifies, carrying the id, until 90 days have passed and not after. */
  lemma VerifySigned(mac: Mac, id: ObjectId, issued: Millis, now: Millis)
    ensures Seconds(now) < Seconds(issued) + LifetimeSeconds ==> Verify(mac, Sign(mac, id, issued), now).Ok?
    ensures Verify(mac, Sign(mac, id, issued), now).Ok? ==> Verify(mac, Sign(mac, id, issued), now).value.id == id
    ensures Seconds(now) >= Seconds(issued) + LifetimeSeconds ==> Verify(mac, Sign(mac, id, issued), now) == Err(ExpiredToken)
  {
  }

  /** A token signed under another secret fails as invalid, whatever the clock. */
  lemma VerifyForeign(mac: Mac, other: Mac, id: ObjectId, issued: Millis, now: Millis)
    requires other(Sign(other, id, issued).claims) != mac(Sign(other, id, issued).claims)
    ensures Verify(mac, Sign(other, id, issued), now) == Err(InvalidToken)
  {
  }
}

=== FILE: models.dfy ===
/**
  The two document schemas (`User`, `PasswordItem`) and the collection
  operations the controllers call on them. A collection is a sequence in
  insertion order; `create` applies the schema's setters and defaults,
  runs its `required` validators, then enforces the unique indexes, whose
  violation is the store's duplicate-key error (code 11000).
 */
module Models {
  import opened Base
  import Text

  // ----- users -----

  datatype User = User(
    id: ObjectId,
    username: string,
    passwordHash: string,
    answerHash1: string,
    answerHash2: string,
    answerHash3: string,
    createdAt: Millis)

  /**
    A stored user: the username is present and already trimmed and
    lower-cased, and all four digests are present (a `required` string
    validator refuses the empty string).
   */
  predicate ValidUser(u: User) {
    && u.username != ""
    && Text.Normalize(u.username) == u.username
    && u.passwordHash != "" && u.answerHash1 != "" && u.answerHash2 != "" && u.answerHash3 != ""
  }

  /** The unique indexes of the users collection: no two records share an `_id` or a `username`. */
  predicate DistinctUserKeys(users: seq<User>) {
    forall i, j :: 0 <= i < j < |users| ==> users[i].id != users[j].id && users[i].username != users[j].username
  }

  /** The users collection: every record valid, `_id` and `username` unique. */
  predicate ValidUsers(users: seq<User>) {
    && (forall i :: 0 <= i < |users| ==> ValidUser(users[i]))
    && DistinctUserKeys(users)
  }

  /** Why `Model.create` rejected a document. */
  datatype CreateError =
    | ValidationError(paths: seq<string>)   // the `required` paths that failed, in schema order
    | DuplicateKey                           // code 11000: a unique index (`_id` or `username`) collided

  /** The message the user schema gives a missing username. */
  const UsernameRequiredMessage := "Please enter a username"

  function MissingUserPaths(username: string, passwordHash: string, a1: string, a2: string, a3: string): (paths: seq<string>)
    ensures paths == [] <==> username != "" && passwordHash != "" && a1 != "" && a2 != "" && a3 != ""
  {
    (if username == "" then ["username"] else [])
    + (if passwordHash == "" then ["passwordHash"] else [])
    + (if a1 == "" then ["answerHash1"] else [])
    + (if a2 == "" then ["answerHash2"] else [])
    + (if a3 == "" then ["answerHash3"] else [])
  }

  /** A user with this `_id` or this (stored) username already exists. */
  predicate UserKeyTaken(users: seq<User>, id: ObjectId, username: string) {
    exists i :: 0 <= i < |users| && (users[i].id == id || users[i].username == username)
  }

  /**
    `User.create({username, passwordHash, answerHash1..3})` with the `_id`
    and timestamp the store assigns: the username is stored normalised, a
    missing required field is a validation error, and a collision on a
    unique index is a duplicate-key error; otherwise the user is appended.
   */
  function CreateUser(users: seq<User>, id: ObjectId, username: Option<string>, passwordHash: string,
                      a1: string, a2: string, a3: string, now: Millis): (r: Result<(seq<User>, User), CreateError>)
    ensures r.Ok? ==> r.value.0 == users + [r.value.1]
    ensures r.Ok? ==> var u := r.value.1;
      && username.Some? && u.id == id && u.username == Text.Normalize(username.value)
      && u.passwordHash == passwordHash && u.answerHash1 == a1 && u.answerHash2 == a2 && u.answerHash3 == a3
      && ValidUser(u)
    ensures r.Ok? && ValidUsers(users) ==> ValidUsers(r.value.0)
    ensures (r.Err? && r.error.ValidationError?) <==>
      username.None? || Text.Normalize(username.value) == "" || passwordHash == "" || a1 == "" || a2 == "" || a3 == ""
    ensures r == Err(DuplicateKey) <==>
      !(r.Err? && r.error.ValidationError?) && UserKeyTaken(users, id, Text.Normalize(username.value))
  {
    var name := if username.Some? then Text.Normalize(username.value) else "";
    var missing := MissingUserPaths(name, passwordHash, a1, a2, a3);
    if missing != [] then Err(ValidationError(missing))
    else if UserKeyTaken(users, id, name) then Err(DuplicateKey)
    else
      var u := User(id, name, passwordHash, a1, a2, a3, now);
      Text.NormalizeIdempotent(username.value);
      assert ValidUser(u);
      AppendUserKeepsValid(users, u);
      Ok((users + [u], u))
  }

  /** Appending a user whose `_id` and username are both new keeps the keys unique. */
  lemma AppendUserKeepsDistinct(users: seq<User>, u: User)
    requires DistinctUserKeys(users) && !UserKeyTaken(users, u.id, u.username)
    ensures DistinctUserKeys(users + [u])
  {
    var r := users + [u];
    forall i, j | 0 <= i < j < |r| ensures r[i].id != r[j].id && r[i].username != r[j].username {
      assert r[i] == users[i];
      if j < |users| {
        assert r[j] == users[j];
      } else {
        assert r[j] == u;
        assert !(users[i].id == u.id || users[i].username == u.username);
      }
    }
  }

  /** Appending a valid user whose `_id` and username are both new keeps the collection valid. */
  lemma AppendUserKeepsValid(users: seq<User>, u: User)
    requires ValidUser(u) && !UserKeyTaken(users, u.id, u.username)
    ensures ValidUsers(users) ==> ValidUsers(users + [u])
  {
    if !ValidUsers(users) {
      return;
    }
    var r := users + [u];
    forall i | 0 <= i < |r| ensures ValidUser(r[i]) {
      if i < |users| {
        assert r[i] == users[i];
      }
    }
    AppendUserKeepsDistinct(users, u);
  }

  /** `User.findById(id)`. */
  function FindUserById(users: seq<User>, id: ObjectId): (r: Option<User>)
    ensures r.Some? ==> r.value in users && r.value.id == id
    ensures r.None? <==> forall i :: 0 <= i < |users| ==> users[i].id != id
  {
    if users == [] then None
    else if users[0].id == id then Some(users[0])
    else FindUserById(users[1..], id)
  }

  /**
    `User.findOne({ username: filter })`. The store casts a query filter
    through the path's setters, so the filter is trimmed and lower-cased
    before it is compared.
   */
  function FindUserByUsername(users: seq<User>, filter: string): (r: Option<User>)
    ensures r.Some? ==> r.value in users && r.value.username == Text.Normalize(filter)
    ensures r.None? <==> forall i :: 0 <= i < |users| ==> users[i].username != Text.Normalize(filter)
  {
    FindStoredName(users, Text.Normalize(filter))
  }

  /** The first user whose stored username is exactly `name`. */
  function FindStoredName(users: seq<User>, name: string): (r: Option<User>)
    ensures r.Some? ==> r.value in users && r.value.username == name
    ensures r.None? <==> forall i :: 0 <= i < |users| ==> users[i].username != name
  {
    if users == [] then None
    else if users[0].username == name then Some(users[0])
    else FindStoredName(users[1..], name)
  }

  /** In a valid collection a username names at most one user, so the lookup finds that one. */
  lemma FindUserByUsernameUnique(users: seq<User>, i: nat, filter: string)
    requires ValidUsers(users) && i < |users| && users[i].username == Text.Normalize(filter)
    ensures FindUserByUsername(users, filter) == Some(users[i])
  {
  }

  /** The lookup depends on its filter only through the filter's normalised form. */
  lemma FindUserByUsernameFilter(users: seq<User>, f: string, g: string)
    requires Text.Normalize(f) == Text.Normalize(g)
    ensures FindUserByUsername(users, f) == FindUserByUsername(users, g)
  {
  }

  // ----- password items -----

  datatype PasswordItem = PasswordItem(
    id: ObjectId,
    userId: ObjectId,
    topicName: string,
    encryptedPassword: string,
    isFavorite: bool,
    createdAt: Millis)

  /** A stored item: a present, trimmed topic name and a present envelope. */
  predicate ValidItem(p: PasswordItem) {
    && p.topicName != "" && Text.IsTrimmed(p.topicName)
    && p.encryptedPassword != ""
  }

  /** The items collection: every record valid, `_id` unique. */
  predicate ValidItems(items: seq<PasswordItem>) {
    && (forall i :: 0 <= i < |items| ==> ValidItem(items[i]))
    && (forall i, j :: 0 <= i < j < |items| ==> items[i].id != items[j].id)
  }

  predicate ItemIdTaken(items: seq<PasswordItem>, id: ObjectId) {
    exists i :: 0 <= i < |items| && items[i].id == id
  }

  /** The message the item schema gives a missing topic name. */
  const TopicRequiredMessage := "Please enter a password topic name"

  /**
    `PasswordItem.create({userId, topicName, encryptedPassword, isFavorite})`:
    the topic name is stored trimmed, `isFavorite` defaults to false, a
    missing topic name or envelope is a validation error and a colliding
    `_id` a duplicate-key error.
   */
  function CreateItem(items: seq<PasswordItem>, id: ObjectId, userId: ObjectId, topicName: Option<string>,
                      encryptedPassword: string, isFavorite: Option<bool>, now: Millis)
    : (r: Result<(seq<PasswordItem>, PasswordItem), CreateError>)
    ensures r.Ok? ==> r.value.0 == items + [r.value.1]
    ensures r.Ok? ==> var p := r.value.1;
      && topicName.Some? && p.id == id && p.userId == userId && p.topicName == Text.Trim(topicName.value)
      && p.encryptedPassword == encryptedPassword
      && p.isFavorite == (isFavorite == Some(true))
      && ValidItem(p)
    ensures r.Ok? && ValidItems(items) ==> ValidItems(r.value.0)
    ensures (r.Err? && r.error.ValidationError?) <==> topicName.None? || Text.Trim(topicName.value) == "" || encryptedPassword == ""
    ensures r == Err(DuplicateKey) <==> !(r.Err? && r.error.ValidationError?) && ItemIdTaken(items, id)
  {
    var topic := if topicName.Some? then Text.Trim(topicName.value) else "";
    var missing := (if topic == "" then ["topicName"] else []) + (if encryptedPassword == "" then ["encryptedPassword"] else []);
    if missing != [] then Err(ValidationError(missing))
    else if ItemIdTaken(items, id) then Err(DuplicateKey)
    else
      var p := PasswordItem(id, userId, topic, encryptedPassword, if isFavorite.Some? then isFavorite.value else false, now);
      assert ValidItem(p);
      AppendItemKeepsValid(items, p);
      Ok((items + [p], p))
  }

  /** Appending a valid item whose `_id` is new keeps the collection valid. */
  lemma AppendItemKeepsValid(items: seq<PasswordItem>, p: PasswordItem)
    requires ValidItem(p) && !ItemIdTaken(items, p.id)
    ensures ValidItems(items) ==> ValidItems(items + [p])
  {
    if !ValidItems(items) {
      return;
    }
    var r := items + [p];
    forall i | 0 <= i < |r| ensures ValidItem(r[i]) {
      if i < |items| {
        assert r[i] == items[i];
      }
    }
    forall i, j | 0 <= i < j < |r| ensures r[i].id != r[j].id {
      assert r[i] == items[i];
      if j < |items| {
        assert r[j] == items[j];
      }
    }
  }

  /** `PasswordItem.findById(id)`. */
  function FindItemById(items: seq<PasswordItem>, id: ObjectId): (r: Option<PasswordItem>)
    ensures r.Some? ==> r.value in items && r.value.id == id
    ensures r.None? <==> !ItemIdTaken(items, id)
  {
    if items == [] then None
    else if items[0].id == id then Some(items[0])
    else
      var r := FindItemById(items[1..], id);
      assert r.None? ==> !ItemIdTaken(items, id) by {
        if r.None? {
          forall i | 0 <= i < |items| ensures items[i].id != id {
            if i > 0 {
              assert items[i] == items[1..][i - 1];
            }
          }
        }
      }
      r
  }

  /** `PasswordItem.find({ userId })`: the owner's items, in collection order. */
  function OwnedBy(items: seq<PasswordItem>, userId: ObjectId): (r: seq<PasswordItem>)
    ensures |r| <= |items|
    ensures forall p :: p in r <==> p in items && p.userId == userId
  {
    if items == [] then []
    else
      var rest := OwnedBy(items[1..], userId);
      assert forall p :: p in items <==> p == items[0] || p in items[1..] by {
        assert items == [items[0]] + items[1..];
      }
      if items[0].userId == userId then [items[0]] + rest else rest
  }

  /** Both `_id` and `userId` match: the filter of `findOneAndDelete`. */
  predicate Matches(p: PasswordItem, id: ObjectId, userId: ObjectId) {
    p.id == id && p.userId == userId
  }

  /** The position of the first item matching both `_id` and `userId`. */
  function FirstMatch(items: seq<PasswordItem>, id: ObjectId, userId: ObjectId): (r: Option<nat>)
    ensures r.None? <==> forall i :: 0 <= i < |items| ==> !Matches(items[i], id, userId)
    ensures r.Some? ==> r.value < |items| && Matches(items[r.value], id, userId)
    ensures r.Some? ==> forall i :: 0 <= i < r.value ==> !Matches(items[i], id, userId)
  {
    if items == [] then None
    else if Matches(items[0], id, userId) then Some(0)
    else
      var r := FirstMatch(items[1..], id, userId);
      assert forall i :: 0 < i < |items| ==> items[i] == items[1..][i - 1];
      if r.None? then None else Some(r.value + 1)
  }

  /**
    `PasswordItem.findOneAndDelete({ _id, userId })`: remove the first item
    matching both, and return it; nothing changes when none matches.
   */
  function DeleteOne(items: seq<PasswordItem>, id: ObjectId, userId: ObjectId)
    : (r: Option<(seq<PasswordItem>, PasswordItem)>)
    ensures r.None? <==> forall i :: 0 <= i < |items| ==> !Matches(items[i], id, userId)
    ensures r.Some? ==> exists i :: 0 <= i < |items| && items[i] == r.value.1 && Matches(items[i], id, userId)
                                    && r.value.0 == items[..i] + items[i + 1..]
    ensures r.Some? && ValidItems(items) ==> ValidItems(r.value.0)
  {
    match FirstMatch(items, id, userId)
    case None => None
    case Some(i) =>
      RemoveKeepsValid(items, i);
      Some((items[..i] + items[i + 1..], items[i]))
  }

  /** Removing one record keeps the items collection valid. */
  lemma RemoveKeepsValid(items: seq<PasswordItem>, i: nat)
    requires i < |items|
    ensures ValidItems(items) ==> ValidItems(items[..i] + items[i + 1..])
  {
    if !ValidItems(items) {
      return;
    }
    var r := items[..i] + items[i + 1..];
    forall a, b | 0 <= a < b < |r| ensures r[a].id != r[b].id {
      var a' := if a < i then a else a + 1;
      var b' := if b < i then b else b + 1;
      assert r[a] == items[a'] && r[b] == items[b'];
    }
  }

  /** Removing the record at `i` from a valid collection removes its `_id` and nothing else. */
  lemma RemoveDropsOnlyThatId(items: seq<PasswordItem>, i: nat)
    requires ValidItems(items) && i < |items|
    ensures forall p :: p in items[..i] + items[i + 1..] <==> p in items && p.id != items[i].id
    ensures !ItemIdTaken(items[..i] + items[i + 1..], items[i].id)
  {
    var r := items[..i] + items[i + 1..];
    forall p | p in r ensures p in items && p.id != items[i].id {
      var k :| 0 <= k < |r| && r[k] == p;
      if k < i {
        assert r[k] == items[k];
      } else {
        assert r[k] == items[k + 1];
      }
    }
    forall p | p in items && p.id != items[i].id ensures p in r {
      var k :| 0 <= k < |items| && items[k] == p;
      if k < i {
        assert r[k] == items[k];
      } else {
        assert k != i;
        assert r[k - 1] == items[k];
      }
    }
    assert !ItemIdTaken(r, items[i].id) by {
      forall k | 0 <= k < |r| ensures r[k].id != items[i].id {
        assert r[k] in r;
      }
    }
  }
}

=== FILE: password_controller.dfy ===
/**
  The vault service of `backend/controllers/passwordController.js`:
  `createPassword`, `getAllPasswords`, `retrievePassword` and
  `deletePassword`, each run for the user that `protect` attached to the
  request. The items collection is passed in and, where it changes,
  returned; the cipher, key, hasher, IV, new `_id` and clock are arguments.
 */
module PasswordController {
  import opened Base
  import Text
  import Bcrypt
  import CryptoUtils
  import Models

  // ----- create -----

  datatype CreateBody = CreateBody(topicName: Option<string>, password: Option<string>, isFavorite: Option<bool>)

  /** The whole create response: no envelope, no plaintext. */
  datatype Created = Created(id: ObjectId, topicName: string, isFavorite: bool)

  /** Stand-ins for the text of exceptions `createPassword` forwards as `err.message`. */
  const EncryptArgumentMessage := "The \"data\" argument must be of type string or an instance of Buffer, TypedArray, or DataView. Received undefined"
  const ItemValidationMessage := "PasswordItem validation failed: topicName: " + Models.TopicRequiredMessage
  const DuplicateIdMessage := "E11000 duplicate key error collection: passworditems index: _id_"

  /**
    `createPassword`: encrypt the password, store the item for the current
    user with `isFavorite || false`, and answer 201 with the metadata only.
    Every failure is a 500 and stores nothing.
   */
  function CreatePassword(c: CryptoUtils.Cipher, key: CryptoUtils.Key, items: seq<Models.PasswordItem>,
                          user: Models.User, body: CreateBody, iv: CryptoUtils.Iv, id: ObjectId, now: Millis)
    : (r: (seq<Models.PasswordItem>, Reply<Created>))
    ensures r.1.Fail? ==> r.0 == items && r.1.status == 500
    ensures r.1.Success? ==> r.1.status == 201 && body.password.Some? && body.topicName.Some?
    ensures r.1.Success? ==> var p := Models.PasswordItem(
        id, user.id, Text.Trim(body.topicName.value),
        CryptoUtils.Encrypt(c, key, iv, body.password.value),
        body.isFavorite == Some(true), now);
      r.0 == items + [p] && r.1.data == Created(p.id, p.topicName, p.isFavorite)
    ensures r.1.Success? <==>
      body.password.Some? && body.topicName.Some? && Text.Trim(body.topicName.value) != "" && !Models.ItemIdTaken(items, id)
    ensures Models.ValidItems(items) ==> Models.ValidItems(r.0)
  {
    if body.password.None? then (items, Fail(500, EncryptArgumentMessage))
    else
      var envelope := CryptoUtils.Encrypt(c, key, iv, body.password.value);
      var favorite := body.isFavorite == Some(true);
      match Models.CreateItem(items, id, user.id, body.topicName, envelope, Some(favorite), now)
      case Err(ValidationError(_)) => (items, Fail(500, ItemValidationMessage))
      case Err(DuplicateKey) => (items, Fail(500, DuplicateIdMessage))
      case Ok((items', p)) => (items', Success(201, Created(p.id, p.topicName, p.isFavorite)))
  }

  /** What `createPassword` stores decrypts, with a sound cipher, to the submitted password. */
  lemma CreatedItemDecrypts(c: CryptoUtils.Cipher, key: CryptoUtils.Key, items: seq<Models.PasswordItem>,
                            user: Models.User, body: CreateBody, iv: CryptoUtils.Iv, id: ObjectId, now: Millis)
    requires CryptoUtils.Sound(c)
    requires CreatePassword(c, key, items, user, body, iv, id, now).1.Success?
    ensures var items' := CreatePassword(c, key, items, user, body, iv, id, now).0;
      |items'| == |items| + 1 && items'[|items|].userId == user.id
      && CryptoUtils.Decrypt(c, key, items'[|items|].encryptedPassword) == Ok(body.password.value)
  {
    CryptoUtils.DecryptEncrypt(c, key, iv, body.password.value);
  }

  // ----- list -----

  /** The projection `select('topicName isFavorite createdAt')`, which keeps `_id`. */
  datatype Summary = Summary(id: ObjectId, topicName: string, isFavorite: bool, createdAt: Millis)

  datatype Listing = Listing(results: nat, items: seq<Summary>)

  function Summarize(p: Models.PasswordItem): Summary
  {
    Summary(p.id, p.topicName, p.isFavorite, p.createdAt)
  }

  /**
    `getAllPasswords`: the current user's items and no one else's, each
    reduced to its metadata (the envelope has no place in a `Summary`).
   */
  function GetAllPasswords(items: seq<Models.PasswordItem>, user: Models.User): (r: Reply<Listing>)
    ensures r.Success? && r.status == 200 && r.data.results == |r.data.items| <= |items|
    ensures forall p :: p in items && p.userId == user.id ==> Summarize(p) in r.data.items
    ensures forall s :: s in r.data.items ==> exists p :: p in items && p.userId == user.id && s == Summarize(p)
  {
    var owned := Models.OwnedBy(items, user.id);
    var summaries := seq(|owned|, k requires 0 <= k < |owned| => Summarize(owned[k]));
    assert forall p :: p in owned ==> Summarize(p) in summaries by {
      forall p | p in owned ensures Summarize(p) in summaries {
        var k :| 0 <= k < |owned| && owned[k] == p;
        assert summaries[k] == Summarize(p);
      }
    }
    Success(200, Listing(|summaries|, summaries))
  }

  // ----- retrieve -----

  datatype Answers = Answers(answer1: Option<string>, answer2: Option<string>, answer3: Option<string>)

  /** The success payload: the decrypted password and the topic it belongs to. */
  datatype Revealed = Revealed(password: string, topicName: string)

  /** The `console.warn` line a wrong set of answers leaves: who, and when. */
  datatype Audit = FailedRetrieval(username: string, at: Millis)

  datatype Retrieval = Retrieval(reply: Reply<Revealed>, audit: Option<Audit>)

  const NotFoundMessage := "Password item not found."
  const AnswerMismatchMessage := "Incorrect security answers. Password retrieval failed."
  const RetrievalFailedMessage := "Secure retrieval failed."

  /** The item exists and belongs to the user. */
  predicate Owns(items: seq<Models.PasswordItem>, user: Models.User, id: ObjectId) {
    var found := Models.FindItemById(items, id);
    found.Some? && found.value.userId == user.id
  }

  predicate Complete(a: Answers) {
    a.answer1.Some? && a.answer2.Some? && a.answer3.Some?
  }

  /** All three answers verify, each against its own digest. */
  predicate AllMatch(h: Bcrypt.Hasher, user: Models.User, a: Answers)
    requires Complete(a)
  {
    && Bcrypt.AnswerMatches(h, a.answer1.value, user.answerHash1)
    && Bcrypt.AnswerMatches(h, a.answer2.value, user.answerHash2)
    && Bcrypt.AnswerMatches(h, a.answer3.value, user.answerHash3)
  }

  /**
    `retrievePassword`: a missing item and another user's item are the
    same 404; a missing answer is the 500 of the `catch`; any wrong answer
    is the one 403, logged; with all three right the envelope is decrypted,
    and a decryption failure is the 500, never the 403.
   */
  function RetrievePassword(c: CryptoUtils.Cipher, key: CryptoUtils.Key, h: Bcrypt.Hasher,
                            items: seq<Models.PasswordItem>, user: Models.User, id: ObjectId,
                            answers: Answers, now: Millis): (r: Retrieval)
    ensures !Owns(items, user, id) ==> r == Retrieval(Fail(404, NotFoundMessage), None)
    ensures Owns(items, user, id) && !Complete(answers) ==> r == Retrieval(Fail(500, RetrievalFailedMessage), None)
    ensures Owns(items, user, id) && Complete(answers) && !AllMatch(h, user, answers) ==>
      r == Retrieval(Fail(403, AnswerMismatchMessage), Some(FailedRetrieval(user.username, now)))
    ensures Owns(items, user, id) && Complete(answers) && AllMatch(h, user, answers)
            && CryptoUtils.Decrypt(c, key, Models.FindItemById(items, id).value.encryptedPassword).Err? ==>
      r == Retrieval(Fail(500, RetrievalFailedMessage), None)
    ensures r.audit.Some? <==> r.reply == Fail(403, AnswerMismatchMessage)
    ensures r.reply.Success? <==>
      Owns(items, user, id) && Complete(answers) && AllMatch(h, user, answers)
      && CryptoUtils.Decrypt(c, key, Models.FindItemById(items, id).value.encryptedPassword).Ok?
    ensures r.reply.Success? ==>
      var item := Models.FindItemById(items, id).value;
      r.reply == Success(200, Revealed(CryptoUtils.Decrypt(c, key, item.encryptedPassword).value, item.topicName))
  {
    match Models.FindItemById(items, id)
    case None => Retrieval(Fail(404, NotFoundMessage), None)
    case Some(item) =>
      if item.userId != user.id then Retrieval(Fail(404, NotFoundMessage), None)
      else if !Complete(answers) then Retrieval(Fail(500, RetrievalFailedMessage), None)
      else if !AllMatch(h, user, answers) then
        Retrieval(Fail(403, AnswerMismatchMessage), Some(FailedRetrieval(user.username, now)))
      else
        match CryptoUtils.Decrypt(c, key, item.encryptedPassword)
        case Err(_) => Retrieval(Fail(500, RetrievalFailedMessage), None)
        case Ok(password) => Retrieval(Success(200, Revealed(password, item.topicName)), None)
  }

  /**
    Which answers were wrong, and how, is not observable: any two complete
    sets of answers that each miss at least once (all seven patterns of
    wrong answers among three) get the identical reply and log line.
   */
  lemma MismatchesIndistinguishable(c: CryptoUtils.Cipher, key: CryptoUtils.Key, h: Bcrypt.Hasher,
                                    items: seq<Models.PasswordItem>, user: Models.User, id: ObjectId,
                                    a: Answers, b: Answers, now: Millis)
    requires Owns(items, user, id)
    requires Complete(a) && !AllMatch(h, user, a)
    requires Complete(b) && !AllMatch(h, user, b)
    ensures RetrievePassword(c, key, h, items, user, id, a, now) == RetrievePassword(c, key, h, items, user, id, b, now)
  {
  }

  // ----- delete -----

  const DeleteNotFoundMessage := "Password item not found or you do not have permission."

  /**
    `deletePassword`: remove the item only when both its `_id` and its
    owner match; otherwise answer 404 with one message and change nothing.
   */
  function DeletePassword(items: seq<Models.PasswordItem>, user: Models.User, id: ObjectId)
    : (r: (seq<Models.PasswordItem>, Reply<()>))
    ensures r.1.Success? <==> exists i :: 0 <= i < |items| && Models.Matches(items[i], id, user.id)
    ensures r.1.Fail? ==> r == (items, Fail(404, DeleteNotFoundMessage))
    ensures r.1.Success? ==> r.1.status == 204
    ensures r.1.Success? ==>
      exists i :: 0 <= i < |items| && Models.Matches(items[i], id, user.id) && r.0 == items[..i] + items[i + 1..]
    ensures Models.ValidItems(items) ==> Models.ValidItems(r.0)
  {
    match Models.DeleteOne(items, id, user.id)
    case None => (items, Fail(404, DeleteNotFoundMessage))
    case Some((items', _)) => (items', Success(204, ()))
  }

  /**
    In a valid collection, deletion removes exactly the one item with that
    `_id`: every other item stays, and the deleted one can no longer be
    retrieved.
   */
  lemma DeleteRemovesOnlyTarget(c: CryptoUtils.Cipher, key: CryptoUtils.Key, h: Bcrypt.Hasher,
                                items: seq<Models.PasswordItem>, user: Models.User, id: ObjectId,
                                answers: Answers, now: Millis)
    requires Models.ValidItems(items)
    requires DeletePassword(items, user, id).1.Success?
    ensures var items' := DeletePassword(items, user, id).0;
      && (forall p :: p in items && p.id != id ==> p in items')
      && (forall p :: p in items' ==> p in items && p.id != id)
      && RetrievePassword(c, key, h, items', user, id, answers, now) == Retrieval(Fail(404, NotFoundMessage), None)
  {
    var items' := DeletePassword(items, user, id).0;
    var i :| 0 <= i < |items| && Models.Matches(items[i], id, user.id) && items' == items[..i] + items[i + 1..];
    Models.RemoveDropsOnlyThatId(items, i);
  }
}

=== FILE: password_routes.dfy ===
/**
  The wiring of `backend/routes/passwordRoutes.js` (`router.use(protect)`
  in front of list, create, delete and retrieve), and the end-to-end
  properties that follow a secret from signup and creation to retrieval.
 */
module PasswordRoutes {
  import opened Base
  import Text
  import Bcrypt
  import Jwt
  import CryptoUtils
  import Models
  import AuthController
  import AuthMiddleware
  import PasswordController

  /** The foreign primitives and the secrets configured at start-up. */
  datatype Server = Server(cipher: CryptoUtils.Cipher, key: CryptoUtils.Key, hasher: Bcrypt.Hasher, mac: Jwt.Mac)

  datatype Request =
    | ListAll
    | Create(body: PasswordController.CreateBody)
    | Delete(id: ObjectId)
    | Retrieve(id: ObjectId, answers: PasswordController.Answers)

  datatype Payload =
    | Listed(listing: PasswordController.Listing)
    | CreatedItem(created: PasswordController.Created)
    | Deleted
    | Secret(revealed: PasswordController.Revealed)

  /** The items collection after the request, the reply, and any audit line. */
  datatype Outcome = Outcome(
    items: seq<Models.PasswordItem>, reply: Reply<Payload>, audit: Option<PasswordController.Audit>)

  /** What `createPassword` needs to store an item: both fields, a non-blank topic, a free `_id`. */
  predicate Creatable(items: seq<Models.PasswordItem>, body: PasswordController.CreateBody, newId: ObjectId) {
    body.password.Some? && body.topicName.Some? && Text.Trim(body.topicName.value) != "" && !Models.ItemIdTaken(items, newId)
  }

  /** What `retrievePassword` needs to reveal a secret: the user's own item, three right answers, an envelope that decrypts. */
  predicate Retrievable(srv: Server, items: seq<Models.PasswordItem>, user: Models.User, id: ObjectId,
                        answers: PasswordController.Answers) {
    && PasswordController.Owns(items, user, id) && PasswordController.Complete(answers)
    && PasswordController.AllMatch(srv.hasher, user, answers)
    && CryptoUtils.Decrypt(srv.cipher, srv.key, Models.FindItemById(items, id).value.encryptedPassword).Ok?
  }

  /** `GET /`: the listing of the granted user's items. */
  function ListFor(items: seq<Models.PasswordItem>, user: Models.User): (o: Outcome)
    ensures o.items == items && o.audit == None && o.reply.Success? && o.reply.data.Listed?
    ensures forall p :: p in items && p.userId == user.id ==> PasswordController.Summarize(p) in o.reply.data.listing.items
    ensures forall s :: s in o.reply.data.listing.items ==>
      exists p :: p in items && p.userId == user.id && s == PasswordController.Summarize(p)
  {
    var r := PasswordController.GetAllPasswords(items, user);
    Outcome(items, Success(r.status, Listed(r.data)), None)
  }

  /** `POST /`: a new item, owned by the granted user, holding the envelope of the password. */
  function CreateFor(srv: Server, items: seq<Models.PasswordItem>, user: Models.User,
                     body: PasswordController.CreateBody, iv: CryptoUtils.Iv, newId: ObjectId, now: Millis): (o: Outcome)
    ensures o.audit == None
    ensures o.reply.Success? <==> Creatable(items, body, newId)
    ensures o.reply.Fail? ==> o.items == items
    ensures o.reply.Success? ==>
      && body.password.Some?
      && |o.items| == |items| + 1 && o.items[..|items|] == items && o.items[|items|].userId == user.id
      && o.items[|items|].encryptedPassword == CryptoUtils.Encrypt(srv.cipher, srv.key, iv, body.password.value)
      && o.reply == Success(201, CreatedItem(PasswordController.Created(
           newId, o.items[|items|].topicName, o.items[|items|].isFavorite)))
    ensures Models.ValidItems(items) ==> Models.ValidItems(o.items)
  {
    var (items', reply) := PasswordController.CreatePassword(srv.cipher, srv.key, items, user, body, iv, newId, now);
    match reply
    case Success(status, created) => Outcome(items', Success(status, CreatedItem(created)), None)
    case Fail(status, message) => Outcome(items', Fail(status, message), None)
  }

  /** `DELETE /:id`: only an item with that `_id` owned by the granted user can go. */
  function DeleteFor(items: seq<Models.PasswordItem>, user: Models.User, id: ObjectId): (o: Outcome)
    ensures o.audit == None
    ensures o.reply.Success? <==> exists i :: 0 <= i < |items| && Models.Matches(items[i], id, user.id)
    ensures o.reply.Success? ==> o.reply == Success(204, Deleted)
    ensures o.items != items ==>
      exists i :: 0 <= i < |items| && Models.Matches(items[i], id, user.id) && o.items == items[..i] + items[i + 1..]
    ensures Models.ValidItems(items) ==> Models.ValidItems(o.items)
  {
    var (items', reply) := PasswordController.DeletePassword(items, user, id);
    match reply
    case Success(status, _) => Outcome(items', Success(status, Deleted), None)
    case Fail(status, message) => Outcome(items', Fail(status, message), None)
  }

  /** `POST /retrieve/:id`: a secret only from the granted user's own item, after all three answers verify. */
  function RetrieveFor(srv: Server, items: seq<Models.PasswordItem>, user: Models.User, id: ObjectId,
                       answers: PasswordController.Answers, now: Millis): (o: Outcome)
    ensures o.items == items
    ensures o.reply.Success? <==> Retrievable(srv, items, user, id, answers)
    ensures o.reply.Success? ==>
      && PasswordController.Owns(items, user, id) && PasswordController.Complete(answers)
      && PasswordController.AllMatch(srv.hasher, user, answers)
      && o.reply.data.Secret?
      && CryptoUtils.Decrypt(srv.cipher, srv.key, Models.FindItemById(items, id).value.encryptedPassword)
         == Ok(o.reply.data.revealed.password)
      && o.reply.data.revealed.topicName == Models.FindItemById(items, id).value.topicName
    ensures o.audit.Some? ==> o.audit.value == PasswordController.FailedRetrieval(user.username, now)
  {
    var r := PasswordController.RetrievePassword(srv.cipher, srv.key, srv.hasher, items, user, id, answers, now);
    match r.reply
    case Success(status, revealed) => Outcome(items, Success(status, Secret(revealed)), r.audit)
    case Fail(status, message) => Outcome(items, Fail(status, message), r.audit)
  }

  /**
    A request to `/api/passwords`: `protect` first, and the handler only
    with the user it granted. A refused request changes nothing and is
    answered 401; only create and delete can change the collection.
   */
  function Route(srv: Server, users: seq<Models.User>, items: seq<Models.PasswordItem>,
                 cookie: Option<Jwt.Token>, req: Request, iv: CryptoUtils.Iv, newId: ObjectId, now: Millis)
    : (o: Outcome)
    ensures AuthMiddleware.Protect(srv.mac, users, cookie, now).Denied? ==>
      o == Outcome(items, Fail(401, AuthMiddleware.Protect(srv.mac, users, cookie, now).message), None)
    ensures o.reply.Success? || o.items != items || o.audit.Some? ==>
      AuthMiddleware.HasToken(cookie) && Jwt.Verify(srv.mac, cookie.value, now).Ok?
      && AuthMiddleware.Known(users, Jwt.Verify(srv.mac, cookie.value, now).value.id)
    ensures o.items != items ==> req.Create? || req.Delete?
    ensures o.reply.Success? && o.reply.data.Secret? ==> req.Retrieve?
    ensures Models.ValidItems(items) ==> Models.ValidItems(o.items)
    // The handler runs for the user `protect` granted, and touches only that user's items.
    ensures var d := AuthMiddleware.Protect(srv.mac, users, cookie, now);
      d.Granted? && req.ListAll? ==>
        && o.items == items && o.audit == None && o.reply.Success? && o.reply.data.Listed?
        && (forall p :: p in items && p.userId == d.user.id ==>
              PasswordController.Summarize(p) in o.reply.data.listing.items)
        && (forall s :: s in o.reply.data.listing.items ==>
              exists p :: p in items && p.userId == d.user.id && s == PasswordController.Summarize(p))
    ensures var d := AuthMiddleware.Protect(srv.mac, users, cookie, now);
      d.Granted? && req.Create? ==> (o.reply.Success? <==> Creatable(items, req.body, newId))
    ensures var d := AuthMiddleware.Protect(srv.mac, users, cookie, now);
      d.Granted? && req.Create? && o.reply.Success? ==>
        && req.body.password.Some? && o.reply.data.CreatedItem?
        && |o.items| == |items| + 1 && o.items[..|items|] == items && o.items[|items|].userId == d.user.id
        && o.items[|items|].encryptedPassword == CryptoUtils.Encrypt(srv.cipher, srv.key, iv, req.body.password.value)
    ensures var d := AuthMiddleware.Protect(srv.mac, users, cookie, now);
      d.Granted? && req.Delete? ==>
        && (o.reply.Success? <==> exists i :: 0 <= i < |items| && Models.Matches(items[i], req.id, d.user.id))
        && (o.reply.Success? ==> o.reply == Success(204, Deleted))
        && (o.items != items ==>
              exists i :: 0 <= i < |items| && Models.Matches(items[i], req.id, d.user.id)
                          && o.items == items[..i] + items[i + 1..])
    ensures var d := AuthMiddleware.Protect(srv.mac, users, cookie, now);
      d.Granted? && req.Retrieve? ==> (o.reply.Success? <==> Retrievable(srv, items, d.user, req.id, req.answers))
    ensures var d := AuthMiddleware.Protect(srv.mac, users, cookie, now);
      d.Granted? && req.Retrieve? && o.reply.Success? ==>
        && PasswordController.Owns(items, d.user, req.id) && PasswordController.Complete(req.answers)
        && PasswordController.AllMatch(srv.hasher, d.user, req.answers)
        && o.reply.data.Secret?
        && CryptoUtils.Decrypt(srv.cipher, srv.key, Models.FindItemById(items, req.id).value.encryptedPassword)
           == Ok(o.reply.data.revealed.password)
        && o.reply.data.revealed.topicName == Models.FindItemById(items, req.id).value.topicName
    ensures var d := AuthMiddleware.Protect(srv.mac, users, cookie, now);
      o.audit.Some? ==> d.Granted? && req.Retrieve? && o.audit.value == PasswordController.FailedRetrieval(d.user.username, now)
  {
    match AuthMiddleware.Protect(srv.mac, users, cookie, now)
    case Denied(status, message) => Outcome(items, Fail(status, message), None)
    case Granted(user) =>
      match req
      case ListAll => ListFor(items, user)
      case Create(body) => CreateFor(srv, items, user, body, iv, newId, now)
      case Delete(id) => DeleteFor(items, user, id)
      case Retrieve(id, answers) => RetrieveFor(srv, items, user, id, answers, now)
  }

  /** A new record appended to a collection where its `_id` was free is what `findById` finds. */
  lemma FindAppended(items: seq<Models.PasswordItem>, p: Models.PasswordItem)
    requires !Models.ItemIdTaken(items, p.id)
    ensures Models.FindItemById(items + [p], p.id) == Some(p)
  {
    var found := Models.FindItemById(items + [p], p.id);
    assert (items + [p])[|items|] == p;
    assert Models.ItemIdTaken(items + [p], p.id);
  }

  /**
    The guarded retrieval end to end: after signup with answers `s1..s3`
    and creation of an item holding `secret`, the owner's retrieval with
    answers `a1..a3` reveals exactly `secret` and the topic when each
    `ai` normalises as `si` does, and is the logged 403 otherwise.
   */
  lemma RetrieveAfterSignupAndCreate(
    srv: Server, users: seq<Models.User>, sbody: AuthController.SignupBody, salts: AuthController.Salts,
    uid: ObjectId, t0: Millis, items: seq<Models.PasswordItem>, cbody: PasswordController.CreateBody,
    iv: CryptoUtils.Iv, itemId: ObjectId, t1: Millis, answers: PasswordController.Answers, t2: Millis)
    requires CryptoUtils.Sound(srv.cipher) && Bcrypt.Sound(srv.hasher)
    requires AuthController.Signup(srv.hasher, srv.mac, users, sbody, salts, uid, t0).1.Success?
    requires PasswordController.CreatePassword(srv.cipher, srv.key, items,
      AuthController.Signup(srv.hasher, srv.mac, users, sbody, salts, uid, t0).0[|users|],
      cbody, iv, itemId, t1).1.Success?
    requires PasswordController.Complete(answers)
    ensures
      var user := AuthController.Signup(srv.hasher, srv.mac, users, sbody, salts, uid, t0).0[|users|];
      var items' := PasswordController.CreatePassword(srv.cipher, srv.key, items, user, cbody, iv, itemId, t1).0;
      var r := PasswordController.RetrievePassword(srv.cipher, srv.key, srv.hasher, items', user, itemId, answers, t2);
      var right := Text.Normalize(answers.answer1.value) == Text.Normalize(sbody.answer1.value)
                   && Text.Normalize(answers.answer2.value) == Text.Normalize(sbody.answer2.value)
                   && Text.Normalize(answers.answer3.value) == Text.Normalize(sbody.answer3.value);
      && (right ==> r == PasswordController.Retrieval(
            Success(200, PasswordController.Revealed(cbody.password.value, Text.Trim(cbody.topicName.value))), None))
      && (!right ==> r == PasswordController.Retrieval(
            Fail(403, PasswordController.AnswerMismatchMessage),
            Some(PasswordController.FailedRetrieval(user.username, t2))))
  {
    var h := srv.hasher;
    var user := AuthController.Signup(h, srv.mac, users, sbody, salts, uid, t0).0[|users|];
    var created := PasswordController.CreatePassword(srv.cipher, srv.key, items, user, cbody, iv, itemId, t1);
    var items' := created.0;
    var p := items'[|items|];
    assert items' == items + [p];
    FindAppended(items, p);
    assert PasswordController.Owns(items', user, itemId);
    Bcrypt.AnswerMatchesIff(h, answers.answer1.value, sbody.answer1.value, salts.answer1);
    Bcrypt.AnswerMatchesIff(h, answers.answer2.value, sbody.answer2.value, salts.answer2);
    Bcrypt.AnswerMatchesIff(h, answers.answer3.value, sbody.answer3.value, salts.answer3);
    PasswordController.CreatedItemDecrypts(srv.cipher, srv.key, items, user, cbody, iv, itemId, t1);
  }

  /** Without a session that `protect` accepts, no request reaches a vault handler. */
  lemma RefusedRequestsChangeNothing(srv: Server, users: seq<Models.User>, items: seq<Models.PasswordItem>,
                                     req: Request, iv: CryptoUtils.Iv, newId: ObjectId, now: Millis)
    ensures Route(srv, users, items, None, req, iv, newId, now)
         == Outcome(items, Fail(401, AuthMiddleware.NotLoggedInMessage), None)
    ensures Route(srv, users, items, Some(Jwt.Malformed("loggedout")), req, iv, newId, now)
         == Outcome(items, Fail(401, AuthMiddleware.InvalidTokenMessage), None)
  {
  }
}

=== FILE: text.dfy ===
/**
  The string operations the backend relies on: `toLowerCase`, `trim` and
  `split`, restricted to ASCII letters and to the whitespace characters of
  JavaScript's `trim` that are ASCII or Latin-1, plus U+FEFF and the two
  line separators U+2028 and U+2029.
 */
module Text {

  predicate IsUpper(c: char) { 'A' <= c <= 'Z' }

  predicate IsLower(c: char) { 'a' <= c <= 'z' }

  /** A string without ASCII capitals, as `toLowerCase` leaves it. */
  predicate NoUpper(s: string) {
    forall k :: 0 <= k < |s| ==> !IsUpper(s[k])
  }

  /** JavaScript `trim` whitespace, restricted to the characters below U+0100, U+FEFF and the line separators. */
  predicate IsSpace(c: char) {
    c == ' ' || c == '\t' || c == '\n' || c == '\r' || c == '\U{000B}' || c == '\U{000C}'
    || c == '\U{00A0}' || c == '\U{FEFF}' || c == '\U{2028}' || c == '\U{2029}'
  }

  function LowerChar(c: char): (r: char)
    ensures !IsUpper(r)
    ensures IsSpace(r) <==> IsSpace(c)
    ensures !IsUpper(c) ==> r == c
  {
    if IsUpper(c) then (c as int - 'A' as int + 'a' as int) as char else c
  }

  function UpperChar(c: char): (r: char)
    ensures !IsLower(r)
    ensures LowerChar(r) == LowerChar(c)
  {
    if IsLower(c) then (c as int - 'a' as int + 'A' as int) as char else c
  }

  /**
    `String.prototype.toLowerCase` over ASCII letters: no capital is left,
    every capital becomes its own small letter, and every other character
    stays where it was.
   */
  function ToLower(s: string): (r: string)
    ensures |r| == |s| && NoUpper(r)
    ensures forall i :: 0 <= i < |s| && !IsUpper(s[i]) ==> r[i] == s[i]
    ensures forall i :: 0 <= i < |s| && IsUpper(s[i]) ==> IsLower(r[i]) && UpperChar(r[i]) == s[i]
  {
    seq(|s|, i requires 0 <= i < |s| => LowerChar(s[i]))
  }

  /**
    `String.prototype.toUpperCase` over ASCII letters: every small letter
    becomes its own capital, and every other character stays where it was.
   */
  function ToUpper(s: string): (r: string)
    ensures |r| == |s|
    ensures forall i :: 0 <= i < |s| && !IsLower(s[i]) ==> r[i] == s[i]
    ensures forall i :: 0 <= i < |s| && IsLower(s[i]) ==> IsUpper(r[i]) && LowerChar(r[i]) == s[i]
  {
    seq(|s|, i requires 0 <= i < |s| => UpperChar(s[i]))
  }

  predicate AllSpace(s: string) {
    forall i :: 0 <= i < |s| ==> IsSpace(s[i])
  }

  function TrimStart(s: string): (r: string)
    ensures |r| <= |s| && r == s[|s| - |r|..]
    ensures AllSpace(s[..|s| - |r|])
    ensures r == [] || !IsSpace(r[0])
  {
    if |s| > 0 && IsSpace(s[0]) then TrimStart(s[1..]) else s
  }

  function TrimEnd(s: string): (r: string)
    ensures |r| <= |s| && r == s[..|r|]
    ensures AllSpace(s[|r|..])
    ensures r == [] || !IsSpace(r[|r| - 1])
  {
    if |s| > 0 && IsSpace(s[|s| - 1]) then TrimEnd(s[..|s| - 1]) else s
  }

  /**
    `String.prototype.trim`: drop leading and trailing whitespace. The result
    has no outer whitespace, and a string without any is left as it is.
   */
  function Trim(s: string): (r: string)
    ensures IsTrimmed(r)
    ensures IsTrimmed(s) ==> r == s
  {
    TrimOfTrimmed(s);
    TrimLeavesNoOuterSpace(s);
    TrimEnd(TrimStart(s))
  }

  lemma TrimLeavesNoOuterSpace(s: string)
    ensures IsTrimmed(TrimEnd(TrimStart(s)))
  {
    if TrimStart(s) != [] {
      TrimEndKeepsFront(TrimStart(s));
    }
  }

  /** A string `trim` leaves as it is. */
  predicate IsTrimmed(s: string) {
    s == [] || (!IsSpace(s[0]) && !IsSpace(s[|s| - 1]))
  }

  /**
    `s.toLowerCase().trim()`: how a security answer is normalised, and also
    how the user schema stores a username (`trim` and `lowercase` setters).
   */
  function Normalize(s: string): (r: string)
    ensures IsTrimmed(r)
    ensures NoUpper(r)
  {
    TrimKeepsNoUpper(ToLower(s));
    Trim(ToLower(s))
  }

  /** The number of occurrences of `c` in `s`. */
  function Count(s: string, c: char): (n: nat)
    ensures n <= |s|
    ensures n == 0 <==> c !in s
  {
    if s == [] then 0 else (if s[0] == c then 1 else 0) + Count(s[1..], c)
  }

  /**
    `String.prototype.split` with a one-character separator: the maximal
    runs between separators, in order, including empty ones at either end.
   */
  function Split(s: string, sep: char): (parts: seq<string>)
    ensures |parts| == Count(s, sep) + 1
    ensures forall k :: 0 <= k < |parts| ==> sep !in parts[k]
  {
    if s == [] then [[]]
    else
      var rest := Split(s[1..], sep);
      if s[0] == sep then [[]] + rest
      else [[s[0]] + rest[0]] + rest[1..]
  }

  /** `Array.prototype.join` with a one-character separator. */
  function Join(parts: seq<string>, sep: char): string
  {
    if parts == [] then []
    else if |parts| == 1 then parts[0]
    else parts[0] + [sep] + Join(parts[1..], sep)
  }

  // ----- lemmas -----

  lemma {:induction false} TrimStartOfTrimmed(s: string)
    requires s == [] || !IsSpace(s[0])
    ensures TrimStart(s) == s
  {
  }

  lemma {:induction false} TrimEndKeepsFront(s: string)
    requires s != [] && !IsSpace(s[0])
    ensures TrimEnd(s) != [] && !IsSpace(TrimEnd(s)[0])
  {
  }

  /** `trim` only cuts, so it brings in no capital letter. */
  lemma TrimKeepsNoUpper(t: string)
    requires NoUpper(t)
    ensures NoUpper(Trim(t))
  {
    var front := TrimStart(t);
    SliceKeepsNoUpper(t, |t| - |front|, |t|);
    assert t[|t| - |front|..|t|] == front;
    SliceKeepsNoUpper(front, 0, |TrimEnd(front)|);
  }

  lemma SliceKeepsNoUpper(t: string, i: nat, j: nat)
    requires NoUpper(t) && i <= j <= |t|
    ensures NoUpper(t[i..j])
  {
    forall k | 0 <= k < j - i
      ensures !IsUpper(t[i..j][k])
    {
      assert t[i..j][k] == t[i + k];
    }
  }

  /** `TrimStart` and `TrimEnd` leave a string without outer whitespace as it is. */
  lemma TrimOfTrimmed(s: string)
    ensures IsTrimmed(s) ==> TrimEnd(TrimStart(s)) == s
  {
    if IsTrimmed(s) {
      TrimStartOfTrimmed(s);
      if s != [] {
        assert TrimEnd(s) == s;
      }
    }
  }

  /** The result of `trim` is the untouched middle of the input, with only whitespace cut on either side. */
  lemma TrimShape(s: string)
    ensures exists i, j :: 0 <= i <= j <= |s| && Trim(s) == s[i..j] && AllSpace(s[..i]) && AllSpace(s[j..])
  {
    var t := TrimStart(s);
    var i := |s| - |t|;
    var r := TrimEnd(t);
    assert r == s[i..i + |r|];
    assert s[i + |r|..] == t[|r|..];
  }

  /** `trim` is idempotent. */
  lemma TrimIdempotent(s: string)
    ensures Trim(Trim(s)) == Trim(s)
  {
  }

  lemma {:induction false} TrimStartSkipsSpace(pre: string, s: string)
    requires AllSpace(pre)
    ensures TrimStart(pre + s) == TrimStart(s)
  {
    if pre != [] {
      assert (pre + s)[1..] == pre[1..] + s;
      TrimStartSkipsSpace(pre[1..], s);
    } else {
      assert pre + s == s;
    }
  }

  lemma {:induction false} TrimEndSkipsSpace(s: string, post: string)
    requires AllSpace(post)
    ensures TrimEnd(s + post) == TrimEnd(s)
  {
    if post != [] {
      var n := |s + post|;
      assert (s + post)[..n - 1] == s + post[..|post| - 1];
      TrimEndSkipsSpace(s, post[..|post| - 1]);
    } else {
      assert s + post == s;
    }
  }

  lemma {:induction false} TrimStartOfSuffixSpace(s: string, post: string)
    requires AllSpace(post)
    ensures TrimEnd(TrimStart(s + post)) == TrimEnd(TrimStart(s))
  {
    if s == [] {
      assert s + post == post;
      TrimStartSkipsSpace(post, []);
      assert post + [] == post;
    } else if IsSpace(s[0]) {
      assert (s + post)[1..] == s[1..] + post;
      TrimStartOfSuffixSpace(s[1..], post);
    } else {
      assert TrimStart(s + post) == s + post;
      TrimEndSkipsSpace(s, post);
    }
  }

  /** Surrounding whitespace does not change what `trim` returns. */
  lemma TrimIgnoresPadding(pre: string, s: string, post: string)
    requires AllSpace(pre) && AllSpace(post)
    ensures Trim(pre + s + post) == Trim(s)
  {
    var tail := s + post;
    calc {
      Trim(pre + s + post);
      { assert pre + s + post == pre + tail; }
      TrimEnd(TrimStart(pre + tail));
      { TrimStartSkipsSpace(pre, tail); }
      TrimEnd(TrimStart(tail));
      { TrimStartOfSuffixSpace(s, post); }
      Trim(s);
    }
  }

  lemma {:induction false} LowerTrimStartCommute(s: string)
    ensures ToLower(TrimStart(s)) == TrimStart(ToLower(s))
  {
    if |s| > 0 && IsSpace(s[0]) {
      assert ToLower(s)[1..] == ToLower(s[1..]);
      LowerTrimStartCommute(s[1..]);
    }
  }

  lemma {:induction false} LowerTrimEndCommute(s: string)
    ensures ToLower(TrimEnd(s)) == TrimEnd(ToLower(s))
  {
    if |s| > 0 && IsSpace(s[|s| - 1]) {
      assert ToLower(s)[..|s| - 1] == ToLower(s[..|s| - 1]);
      LowerTrimEndCommute(s[..|s| - 1]);
    }
  }

  /** Lower-casing does not move whitespace, so the setter order `trim` then `lowercase` gives the same username. */
  lemma LowerTrimCommute(s: string)
    ensures ToLower(Trim(s)) == Trim(ToLower(s))
  {
    LowerTrimEndCommute(TrimStart(s));
    LowerTrimStartCommute(s);
  }

  /** Normalisation is idempotent: a stored normalised value normalises to itself. */
  lemma NormalizeIdempotent(s: string)
    ensures Normalize(Normalize(s)) == Normalize(s)
  {
    var t := Trim(ToLower(s));
    LowerTrimCommute(ToLower(s));
    assert ToLower(ToLower(s)) == ToLower(s);
    assert ToLower(t) == Trim(ToLower(ToLower(s)));
    TrimIdempotent(ToLower(s));
  }

  /** Lower-casing before normalising changes nothing, so `login`'s own `toLowerCase` is harmless. */
  lemma NormalizeOfLower(s: string)
    ensures Normalize(ToLower(s)) == Normalize(s)
  {
    assert ToLower(ToLower(s)) == ToLower(s);
  }

  /**
    Two inputs that differ only in letter case or in surrounding
    whitespace normalise to the same string.
   */
  lemma NormalizeIgnoresCaseAndPadding(pre: string, s: string, post: string)
    requires AllSpace(pre) && AllSpace(post)
    ensures Normalize(pre + ToUpper(s) + post) == Normalize(s)
    ensures Normalize(pre + s + post) == Normalize(s)
  {
    assert ToLower(pre + ToUpper(s) + post) == ToLower(pre) + ToLower(s) + ToLower(post);
    assert ToLower(pre + s + post) == ToLower(pre) + ToLower(s) + ToLower(post);
    TrimIgnoresPadding(ToLower(pre), ToLower(s), ToLower(post));
  }

  /** Gluing a character onto the first part glues it onto the joined string. */
  lemma JoinConsHead(c: char, parts: seq<string>, sep: char)
    requires parts != []
    ensures Join([[c] + parts[0]] + parts[1..], sep) == [c] + Join(parts, sep)
  {
    if |parts| > 1 {
      assert ([[c] + parts[0]] + parts[1..])[1..] == parts[1..];
    }
  }

  /** Splitting on a separator and joining the parts with it restores the input. */
  lemma {:induction false} JoinSplit(s: string, sep: char)
    ensures Join(Split(s, sep), sep) == s
  {
    if s != [] {
      var rest := Split(s[1..], sep);
      JoinSplit(s[1..], sep);
      assert [s[0]] + s[1..] == s;
      if s[0] == sep {
        assert ([[]] + rest)[1..] == rest;
      } else {
        JoinConsHead(s[0], rest, sep);
      }
    }
  }

  lemma {:induction false} SplitNoSep(s: string, sep: char)
    requires sep !in s
    ensures Split(s, sep) == [s]
  {
    if s != [] {
      SplitNoSep(s[1..], sep);
      assert [s[0]] + s[1..] == s;
    }
  }

  lemma {:induction false} SplitPrefix(a: string, rest: string, sep: char)
    requires sep !in a
    ensures Split(a + [sep] + rest, sep) == [a] + Split(rest, sep)
  {
    if a == [] {
      assert a + [sep] + rest == [sep] + rest;
      assert ([sep] + rest)[1..] == rest;
    } else {
      var s := a + [sep] + rest;
      var tail := a[1..] + [sep] + rest;
      assert s == [a[0]] + tail;
      assert s[1..] == tail;
      SplitPrefix(a[1..], rest, sep);
      var parts := Split(tail, sep);
      assert parts == [a[1..]] + Split(rest, sep);
      assert Split(s, sep) == [[a[0]] + parts[0]] + parts[1..];
      assert [a[0]] + a[1..] == a;
    }
  }

  /** Joining two separator-free parts and splitting again gives the parts back. */
  lemma SplitTwo(a: string, b: string, sep: char)
    requires sep !in a && sep !in b
    ensures Split(a + [sep] + b, sep) == [a, b]
  {
    SplitPrefix(a, b, sep);
    SplitNoSep(b, sep);
  }
}
